=== FILE: README.md ===
# DistroNexus orchestration core in Dafny

DistroNexus is a desktop manager for WSL instances. Its Go logic layer never
manipulates an instance directly: it validates the user's input, builds a
PowerShell command line for one of its scripts, launches it, streams the
script's output lines to the interface, and decodes the JSON listing the
listing script prints. This project models that layer and proves properties
of the model:

- `Validation`: the instance-name check (forbidden characters first, then
  blank names) and the install-directory check (missing or empty directory
  only).
- `Commands`: the canonical command line
  `powershell.exe -NoProfile -ExecutionPolicy Bypass -File <root>\scripts\<script> <args>`,
  the named parameters of every catalog operation, and the rule that
  optional parameters are passed only when they carry a value. An idealised
  token reader (a flag, then its value as the next token) reads an argument
  vector back, which shows that the token layout of every operation carries
  all of its arguments, each in its own place.
- `Lines`: `bufio.ScanLines` tokenisation and `scanOutput`, which forwards
  each line with its newline re-attached.
- `Invoker`: `RunPowerShellScript`, in captured mode and in streaming mode.
- `Instances`: the listing decoder (empty output, then an array, then a
  single object, else an error quoting the payload), release-label
  enrichment, the `PRETTY_NAME` extraction and the case-insensitive
  registration lookup.
- `DiskSize`: the binary unit chosen for the virtual disk's size.
- `Installer`: `RunInstallScript`. It builds a fixed argument list. It falls
  back once from Windows PowerShell to PowerShell Core. It streams both
  pipes to the log. With PowerShell Core's pipe errors reported, it calls
  `onFinish` exactly once, last. As written, the source discards those
  errors and can crash before `onFinish` is called (see Findings).

The host is passed in as parameters: process starts and exits, pipe contents,
the errors of pipes that cannot be created (for PowerShell Core too), the
JSON decoder, the `wsl` probe and the filesystem. `Processes` holds the
start and exit outcomes. `Text` holds the Go string functions the layer relies
on (`strings.TrimSpace` with `unicode.IsSpace`, `strings.EqualFold`, `%d`).

Facts about the code worth knowing when reading the model:

- The install argument list has 17 tokens: the four preamble tokens, the
  script path, and six flag/value pairs.
- `ListDistros(force)` passes `-ForceUpdate` to the listing script when
  forced and does nothing else differently.
- The listing decoder treats only zero-length output as an empty listing.
  Where the code and its own comment disagree, the model follows the code:
  the comment says white space only is also empty, but the check is
  `len(output) == 0`, so white space goes to the JSON decoder.
- In streaming mode `RunPowerShellScript` reads stdout then stderr through
  `io.MultiReader`. An unterminated last stdout line is therefore merged
  with the first stderr line (`Lines.UnterminatedLineMerges`).
- `StartDistro` passes a start path only together with `-OpenTerminal`.
  Without a terminal the path is silently dropped (`Commands.Effective`).
- `bufio.ScanLines` drops one carriage return before each newline, so
  Windows line endings reach the callback as `\n` only.
- `RunInstallScript` falls back to `pwsh` when `powershell.exe` cannot be
  started. `RunPowerShellScript`, `ListDistros` and `StartDistro` have no
  fallback and always use `powershell.exe`.

## Model

| member | source | states |
|---|---|---|
| Validation.ValidateDistroName | src/internal/logic/wsl_manager.go:48-59 | rejected for invalid characters exactly when some character is one of `<>:"/\|?*` or a control character below U+0020; rejected as empty exactly when no such character occurs and every character is white space; valid exactly otherwise |
| Validation.ValidateInstallPath | src/internal/logic/wsl_manager.go:30-45 | usable exactly when the path does not exist or is an empty directory; "cannot verify" exactly when opening fails for another reason, carrying that error; "not empty" exactly for a non-empty directory, a directory whose names cannot be read, or a non-directory |
| Text.TrimSpace | src/internal/logic/wsl_manager.go:55-57 | only leading and trailing white space is removed: the result is a substring of the name with only white space before and after it, and it neither starts nor ends with white space; it is empty exactly when every character is Unicode white space |
| Commands.CommandLine | src/internal/logic/wsl_manager.go:79-85 | the argument vector is the four safety flags, the script path under `scripts`, then the caller's tokens unchanged and in order |
| Commands.SplitCommandLineInverts | src/internal/logic/wsl_manager.go:79-85 | splitting a command line gives back exactly the script path and the caller's tokens, whatever they contain |
| Commands.FlagOfSpelling | src/internal/logic/wsl_manager.go:189-321 | every parameter flag the scripts receive is recognised as itself, so no two flags share a spelling |
| Commands.NamedTokens | src/internal/logic/installer.go:20-30 | a list of flag/value parameters becomes two tokens per parameter, the flag first and its value, as its own token, second |
| Commands.ReadParamsInvertsTokens | src/internal/logic/wsl_manager.go:189-321 | the token layout is unambiguous: the idealised reader (flag, then value as the next token) recovers the same parameters, even when a value is empty or looks like a flag |
| Commands.SwitchIf | src/internal/logic/wsl_manager.go:190-192 | a switch flag is present exactly when it is set |
| Commands.Optional | src/internal/logic/wsl_manager.go:239-241 | an optional flag/value pair is present exactly when its value is non-empty |
| Commands.Params | src/internal/logic/wsl_manager.go:188-321 | every parameter an operation passes is well-kinded: switch flags travel alone and value flags with a value; where each one goes is `Commands.ParamsShape` |
| Commands.ParamsShape | src/internal/logic/wsl_manager.go:188-321 | for every operation, the mandatory pairs come first in the source's order; `-Force`, `-NewPath`, `-SourceUrl`, `-Password` and `-OpenTerminal` appear exactly when set or non-empty; `-StartPath` appears exactly with a terminal and a non-empty path; stop, scan, move, download and install pass fixed lists |
| Commands.OperationOfParams | src/internal/logic/wsl_manager.go:188-321 | decoding an operation's parameters gives back the operation itself, except that a start path without a terminal is lost |
| Commands.InvocationDecodes | src/internal/logic/wsl_manager.go:78-85 | for every operation, the argument vector splits into the operation's script path and tokens, the idealised reader recovers its parameters from the tokens, and those decode to the operation |
| Commands.ListCommand | src/internal/logic/wsl_manager.go:136-141 | the listing command line is the preamble and the listing script path, plus `-ForceUpdate` as the last token exactly when forced |
| Commands.StartLaunch | src/internal/logic/wsl_manager.go:271-292 | with a terminal the start script is launched through `cmd.exe /c start powershell.exe` and not waited for; without one it runs under `powershell.exe` and is waited for; both carry the start script's command line |
| Lines.ScanOutput | src/internal/logic/installer.go:86-94 | the loop forwards exactly the scanner's tokens, in order, each with a newline appended |
| Lines.DeliveriesAreSingleLines | src/internal/logic/installer.go:89-93 | each forwarded string is one line: it ends with a newline and holds no other |
| Lines.DeliveriesRejoin | src/internal/logic/installer.go:89-93 | for a stream without carriage returns, joining the forwarded strings gives back the stream, closed by a newline when it was not; no line is split or merged |
| Lines.TerminatedInjective | src/internal/logic/installer.go:91-92 | re-appending the newline loses nothing: different token lists are forwarded differently |
| Lines.ConcatenatedStreams | src/internal/logic/wsl_manager.go:114-119 | reading two streams one after the other, when the first ends with a newline, forwards the first stream's lines and then the second's |
| Lines.UnterminatedLineMerges | src/internal/logic/wsl_manager.go:114-119 | an unterminated last stdout line is forwarded merged with the first stderr line |
| Lines.ThreeLines | src/internal/logic/installer.go:89-93 | three newline-terminated lines are forwarded as three strings, in order |
| Lines.CarriageReturnsDropped | src/internal/logic/installer.go:89-93 | a carriage return before a newline is removed, and an unterminated last line is still forwarded |
| Invoker.RunPowerShellScript | src/internal/logic/wsl_manager.go:78-132 | the process is the one the host reports for `powershell.exe` with the canonical command line; no error exactly when (in streaming mode) both pipes were created, the process started and it exited cleanly; captured mode forwards nothing, and its error carries the combined output (empty when the start failed) with the start or exit error as cause; streaming mode returns the stdout pipe error, else the stderr pipe error, else the start error, unchanged; once started it forwards every line of stdout then stderr, reduces a non-zero exit to its code and passes a failed wait's error through |
| Invoker.StreamedStdoutFirst | src/internal/logic/wsl_manager.go:114-119 | when stdout ends with a newline, the callback sees all stdout lines, then all stderr lines |
| Invoker.Message | src/internal/logic/wsl_manager.go:93-128 | the error text quotes both the captured output and its cause, prints the exit code, and passes any other error through unchanged |
| Instances.FindPrettyNameLeftmost | src/internal/logic/wsl_manager.go:309-315 | the search finds the leftmost `PRETTY_NAME=` followed by a non-empty run of characters that are neither quote nor newline; it finds nothing exactly when there is no such match |
| Instances.PrettyNameQuoted | src/internal/logic/wsl_manager.go:309-315 | a quoted value is extracted without its quotes |
| Instances.PrettyNameBare | src/internal/logic/wsl_manager.go:309-315 | an unquoted value is extracted up to the end of its line |
| Instances.GetDistroReleaseInfo | src/internal/logic/wsl_manager.go:296-316 | empty for an instance that is not running and for a failed probe, and non-empty otherwise; `Linux` when the os-release text has no `PRETTY_NAME` match; otherwise exactly the extracted `PRETTY_NAME` value, free of quotes and newlines |
| Instances.ReleaseLabelIsLeftmostMatch | src/internal/logic/wsl_manager.go:302-315 | for a running instance, the label is empty when the probe fails, `Linux` when the pattern matches nowhere in the os-release text, and otherwise the value of the leftmost match |
| Instances.Enrich | src/internal/logic/wsl_manager.go:174-182 | same length and order; only the release label can change, and only on a running instance without one, where it becomes the probed label |
| Instances.EnrichIdempotent | src/internal/logic/wsl_manager.go:174-182 | a property of the model, whose probe is a function of its arguments: a second enrichment pass changes nothing |
| Instances.ListErrorMessage | src/internal/logic/wsl_manager.go:146-170 | both listing errors quote their cause, and a parse failure also quotes the raw output |
| Instances.DecodeListing | src/internal/logic/wsl_manager.go:151-171 | empty output is an empty listing; an array is taken as is; otherwise a single object is a one-element listing; the decode fails exactly when both decodings fail, with an error that carries the array decoder's error as its cause and carries and quotes the raw output |
| Instances.ListDistros | src/internal/logic/wsl_manager.go:135-185 | a failed listing command is reported as an execution failure; otherwise the result fails exactly when decoding fails, and succeeds with the enrichment of the decoded records, which changes at most their release labels |
| Instances.IsDistroRegistered | src/internal/logic/wsl_manager.go:62-74 | a listing error is returned with the answer false; otherwise the answer is true exactly when some listed name equals the query ignoring case |
| Instances.FindName | src/internal/logic/wsl_manager.go:68-73 | the scan over the listed records answers true exactly when some record's name equals the query ignoring case |
| Instances.RegisteredIgnoresCase | src/internal/logic/wsl_manager.go:68-72 | two queries that differ only in letter case get the same answer |
| Instances.UpperCaseQueryFindsInstance | src/internal/logic/wsl_manager.go:68-72 | a listed `Ubuntu` answers a query for `UBUNTU` |
| DiskSize.ChooseUnit | src/internal/logic/wsl_manager.go:212-223 | sizes below 1024 are reported in bytes; larger ones get a divisor 1024^(k+1), which stays within 64 bits, and the letter at index k of `KMGTPE`, so that the scaled value lies in [1, 1024) |
| DiskSize.GetDistroSize | src/internal/logic/wsl_manager.go:206-224 | a failed stat is reported as unknown with its error; otherwise the size is reported as itself in bytes exactly when below 1024, and else with divisor 1024^(k+1) within 64 bits and the letter at index k of `KMGTPE`, the scaled value lying in [1, 1024) |
| Installer.InstallArgsLayout | src/internal/logic/installer.go:16-30 | the install argument list has 17 tokens: the preamble, the install script path, then `-SelectFamily`, `-SelectVersion`, `-DistroName`, `-InstallPath`, `-user`, `-pass`, each followed by its value even when empty |
| Installer.InstallArgsDecode | src/internal/logic/installer.go:16-30 | the argument list's layout carries exactly the user's choices: it splits into the install script path and tokens that the idealised reader decodes to the request |
| Installer.Interleave | src/internal/logic/installer.go:64-65 | the two readers' lines are merged without loss: the merge has as many events as both, all output lines, and each stream's lines appear in their own order |
| Installer.Render | src/internal/logic/installer.go:60-80 | a scanned line is logged verbatim; every line the orchestrator writes ends in a newline, the banner quotes the instance name, the command echo quotes the program path and the space-joined arguments, and the exit line prints the code |
| Installer.Run | src/internal/logic/installer.go:15-83 | with PowerShell Core's pipe errors reported: the last callback is `onFinish` and no earlier one is; it gets no error exactly when both pipes were created, a start succeeded (PowerShell Core's only after its own pipes were created) and the process exited cleanly |
| Installer.RunInstallScript | src/internal/logic/installer.go:14-84 | the same promise for the install argument list |
| Installer.FinishExactlyOnce | src/internal/logic/installer.go:36-82 | with PowerShell Core's pipe errors reported, `onFinish` is called exactly once on every path |
| Installer.PipeFailureReported | src/internal/logic/installer.go:36-53 | with PowerShell Core's pipe errors reported (the corrected run): a pipe that cannot be created ends the run with `onFinish` carrying that pipe's error: before any start for Windows PowerShell's pipes, right after its failed start for PowerShell Core's |
| Installer.RunAsWritten | src/internal/logic/installer.go:48-65 | the goroutine as written: it agrees with `Installer.Run` on every host except the one where Windows PowerShell fails to start and a pipe of PowerShell Core cannot be created |
| Installer.NilPipeNeverFinishes | src/internal/logic/installer.go:50-65 | as written, when PowerShell Core's pipe cannot be created but it starts, the run ends in a panic of a reader and `onFinish` is never called |
| Installer.FallbackAsWritten | src/internal/logic/installer.go:36-58 | as written: nothing is started when one of Windows PowerShell's pipes cannot be created; otherwise Windows PowerShell is tried, and PowerShell Core exactly when that start failed, whether or not its own pipes were created, with the same arguments |
| Installer.FallbackAtMostOnce | src/internal/logic/installer.go:36-58 | with PowerShell Core's pipe errors reported (the corrected run): nothing is started when a pipe cannot be created; otherwise Windows PowerShell is tried, and PowerShell Core exactly when that start failed and its own pipes were created, with the same arguments |
| Installer.NothingLoggedWithoutStart | src/internal/logic/installer.go:48-57 | when both starts fail, the two attempts are followed directly by `onFinish` with PowerShell Core's start error |
| Installer.BannerBeforeOutput | src/internal/logic/installer.go:60-65 | once a process started, the banner with the instance name and the command line are logged right after the start attempts and before any output line |
| Installer.ExitReported | src/internal/logic/installer.go:68-82 | a clean exit logs the success banner just before `onFinish(nil)`; a non-zero status logs its code just before `onFinish` gets the wait error; a failed wait logs neither |
| Installer.StreamsForwarded | src/internal/logic/installer.go:64-65 | each pipe's lines reach the log exactly as the line scanner forwards them for that pipe, in order; none when no process started |

## Findings

| source | as written | input that shows it | evidently intended | confidence | as-written member | corrected member |
|---|---|---|---|---|---|---|
| src/internal/logic/installer.go:52-53 | PowerShell Core's pipes are created with their errors discarded, so a nil pipe reaches `scanOutput`, whose type assertion (line 89) panics; `onFinish` is never called | `powershell.exe` fails to start, `StdoutPipe` of the `pwsh` command fails, `pwsh` starts | report the pipe error through `onFinish`, as lines 36-45 do for Windows PowerShell's pipes | not executed; high | Installer.NilPipeNeverFinishes | Installer.FinishExactlyOnce |

## Left out

- Process launching, `prepareCmd` (window hiding), pipe creation and waiting
  are host behaviour. They enter as parameters: start outcomes, exit outcomes,
  pipe contents and pipe errors.
- Context cancellation (`exec.CommandContext`) is not modelled. A cancelled
  process is just another exit outcome.
- JSON decoding is an oracle that decodes either an array or a single record.
  The model does not describe the JSON grammar or field mapping.
- The regular expression engine is not modelled. `PRETTY_NAME` extraction is
  written out as the leftmost match of the pattern, character by character.
  The model works on characters, whereas the source matches bytes.
- Instances.IsDistroRegistered: compares names with ASCII case folding only.
  `strings.EqualFold` folds every Unicode case pair (`É` and `é`, `Ä` and
  `ä`, the Kelvin sign and `k`), so non-ASCII names that differ only in case
  are found by the source but not by the model. Unicode case tables are
  outside the model.
- DiskSize.GetDistroSize: reports the divisor, exponent and unit letter but
  not the `%.1f` rendering of the scaled value, because floating point is
  outside the model.
- Commands.ScriptPath: joins with a backslash and does not clean the path as
  `filepath.Join` does. Roots that contain `..`, repeated separators or a
  trailing separator are not normalised.
- Lines.ScanOutput: does not model the 64 KiB token limit of `bufio.Scanner`.
  A longer line stops the real scanner early, and the model treats every line
  as deliverable.
- Invoker.RunPowerShellScript: in streaming mode, promises that every line
  of stdout then stderr is forwarded before the call returns. In the source
  the scanner runs in a goroutine that is not awaited, and `Wait` closes both
  pipes once the process exits, so lines can be forwarded after the call
  returns or be lost. Because `io.MultiReader` reads stderr only after
  stdout ends, a script that fills the stderr pipe while stdout stays open
  blocks the reader and the script, so `Wait` never returns. None of this
  timing is modelled.
- Commands.ReadParams: is an idealised reader of the token layout, not
  PowerShell's `-File` argument binding. That binding takes any token that
  starts with `-` for a parameter name. The name check allows a leading `-`,
  and paths and passwords are not checked at all, so a value such as `-x`
  is mis-bound by the real scripts although the layout carries it. The
  round trips `Commands.ReadParamsInvertsTokens`, `Commands.InvocationDecodes`
  and `Installer.InstallArgsDecode` hold for the layout only.
- Commands.StartLaunch: the terminal launch passes the tokens through
  `cmd.exe /c start`, which parses the command line again. A name or start
  path holding `&`, `^` or `%` is not rejected and would be re-interpreted
  by `cmd.exe`. That second parsing layer is not modelled.
- Processes.ExitErrorText: prints the exit status the way Go's process state
  does on Windows, in hexadecimal for codes of 65536 and above. Other
  platforms' formats are not modelled.
- Installer.Run: orders all output lines before the exit report. In the
  source the two reader goroutines are not awaited, so lines can reach the
  log after the exit report or after `onFinish`, or be lost. How the two
  pipes interleave is an oracle (the host's schedule), and nothing is claimed
  about it beyond each pipe's own order.
- Installer.RunAsWritten: places the panic right after the two log lines.
  In the source the panicking reader races the other reader and `Wait`, so
  some output can be logged before the program ends.
- Instances.FindName: compares names with ASCII case folding only, as
  `Instances.IsDistroRegistered` above; non-ASCII case pairs are not folded.
- Instances.RegisteredIgnoresCase: holds for ASCII letter case only, for the
  same reason.
- Invoker.StreamedStdoutFirst: describes the lines the reader forwards when
  it reads both pipes to their end. The source does not await the reader, so
  lines can arrive after the call returns or be lost.
- Installer.StreamsForwarded: describes the lines each reader forwards when
  it reads its pipe to the end. The readers are not awaited, so lines can
  reach the log after `onFinish` or be lost.
- Installer.Run: the text of each log line is given by `Installer.Render`,
  but the contracts speak about the log-line values, not the rendered strings.
- `DeleteDistroFiles` (`os.RemoveAll`) is pure filesystem I/O with no logic
  beyond the empty-path check, so it is not modelled.
- The GUI, configuration loading and the PowerShell scripts themselves are
  not part of this model.

=== FILE: commands.dfy ===
/** How every script invocation is spelled: the canonical PowerShell command
    line, the named parameters each operation passes, and the rule that
    optional parameters appear only when they carry a value. */
module Commands {
  import opened Wrappers

  const Interpreter := "powershell.exe"

  /** The safety flags placed before every script path. */
  const Preamble: seq<string> := ["-NoProfile", "-ExecutionPolicy", "Bypass", "-File"]

  /** `filepath.Join(root, "scripts", name)` with the Windows separator; path
      cleaning is not modelled. */
  function ScriptPath(root: string, script: string): string {
    if root == "" then "scripts\\" + script else root + "\\scripts\\" + script
  }

  /** The argument vector handed to the interpreter: the preamble, the script
      path, then the caller's tokens unchanged and in order. */
  function CommandLine(root: string, script: string, args: seq<string>): (argv: seq<string>)
    ensures |argv| == |Preamble| + 1 + |args|
    ensures argv[..|Preamble|] == Preamble
    ensures argv[|Preamble|] == ScriptPath(root, script)
    ensures argv[|Preamble| + 1..] == args
  {
    Preamble + [ScriptPath(root, script)] + args
  }

  /** Reads an argument vector back into its script path and caller tokens. */
  function SplitCommandLine(argv: seq<string>): Option<(string, seq<string>)> {
    if |argv| > |Preamble| && argv[..|Preamble|] == Preamble
    then Some((argv[|Preamble|], argv[|Preamble| + 1..]))
    else None
  }

  /** Splitting recovers exactly the script path and caller tokens, whatever
      the tokens contain. */
  lemma SplitCommandLineInverts(root: string, script: string, args: seq<string>)
    ensures SplitCommandLine(CommandLine(root, script, args)) == Some((ScriptPath(root, script), args))
  {
  }

  /** The named parameters the scripts accept. */
  datatype Flag =
    | ForceUpdate | DistroName | Force | OldName | NewName | NewPath | SourceUrl
    | UserName | Password | OpenTerminal | StartPath | SelectFamily | SelectVersion
    | InstallPath | User | Pass

  function Spelling(f: Flag): string {
    match f
    case ForceUpdate => "-ForceUpdate"
    case DistroName => "-DistroName"
    case Force => "-Force"
    case OldName => "-OldName"
    case NewName => "-NewName"
    case NewPath => "-NewPath"
    case SourceUrl => "-SourceUrl"
    case UserName => "-UserName"
    case Password => "-Password"
    case OpenTerminal => "-OpenTerminal"
    case StartPath => "-StartPath"
    case SelectFamily => "-SelectFamily"
    case SelectVersion => "-SelectVersion"
    case InstallPath => "-InstallPath"
    case User => "-user"
    case Pass => "-pass"
  }

  /** Switch parameters take no value token. */
  predicate IsSwitch(f: Flag) {
    f == ForceUpdate || f == Force || f == OpenTerminal
  }

  /** Recognises a flag token. */
  function FlagOf(t: string): (r: Option<Flag>)
    ensures r.Some? ==> Spelling(r.value) == t
  {
    if t == "-ForceUpdate" then Some(ForceUpdate)
    else if t == "-DistroName" then Some(DistroName)
    else if t == "-Force" then Some(Force)
    else if t == "-OldName" then Some(OldName)
    else if t == "-NewName" then Some(NewName)
    else if t == "-NewPath" then Some(NewPath)
    else if t == "-SourceUrl" then Some(SourceUrl)
    else if t == "-UserName" then Some(UserName)
    else if t == "-Password" then Some(Password)
    else if t == "-OpenTerminal" then Some(OpenTerminal)
    else if t == "-StartPath" then Some(StartPath)
    else if t == "-SelectFamily" then Some(SelectFamily)
    else if t == "-SelectVersion" then Some(SelectVersion)
    else if t == "-InstallPath" then Some(InstallPath)
    else if t == "-user" then Some(User)
    else if t == "-pass" then Some(Pass)
    else None
  }

  /** Every flag's spelling is recognised as that flag, so spellings are
      pairwise distinct. */
  lemma FlagOfSpelling(f: Flag)
    ensures FlagOf(Spelling(f)) == Some(f)
  {
  }

  /** One parameter on the command line: a bare switch, or a flag whose value
      follows it as a separate token. */
  datatype Param = Switch(flag: Flag) | Named(flag: Flag, value: string)

  predicate WellKinded(p: Param) {
    p.Switch? <==> IsSwitch(p.flag)
  }

  function ParamTokens(p: Param): seq<string> {
    match p
    case Switch(f) => [Spelling(f)]
    case Named(f, v) => [Spelling(f), v]
  }

  /** The tokens of a parameter list, in order. */
  function Tokens(ps: seq<Param>): seq<string>
    decreases |ps|
  {
    if ps == [] then [] else ParamTokens(ps[0]) + Tokens(ps[1..])
  }

  lemma TokensCons(p: Param, ps: seq<Param>)
    ensures Tokens([p] + ps) == ParamTokens(p) + Tokens(ps)
  {
    assert ([p] + ps)[1..] == ps;
  }

  /** A list of named parameters becomes flag and value pairs: two tokens
      per parameter, the flag's spelling first. */
  lemma {:induction false} NamedTokens(ps: seq<Param>)
    requires forall i :: 0 <= i < |ps| ==> ps[i].Named?
    ensures |Tokens(ps)| == 2 * |ps|
    ensures forall i :: 0 <= i < |ps| ==> Tokens(ps)[2 * i] == Spelling(ps[i].flag) && Tokens(ps)[2 * i + 1] == ps[i].value
    decreases |ps|
  {
    if ps != [] {
      NamedTokens(ps[1..]);
      var t := Tokens(ps);
      assert t == [Spelling(ps[0].flag), ps[0].value] + Tokens(ps[1..]);
      forall i | 1 <= i < |ps|
        ensures t[2 * i] == Spelling(ps[i].flag) && t[2 * i + 1] == ps[i].value
      {
        assert ps[1..][i - 1] == ps[i];
        assert t[2 * i] == Tokens(ps[1..])[2 * (i - 1)];
        assert t[2 * i + 1] == Tokens(ps[1..])[2 * (i - 1) + 1];
      }
    }
  }

  /** An idealised reader of the token layout: a switch flag stands alone,
      any other flag takes the next token as its value, whatever that token
      looks like. It states what the layout carries; PowerShell's own `-File`
      argument binding, which takes any token starting with `-` for a
      parameter name, is not modelled. */
  function ReadParams(ts: seq<string>): Option<seq<Param>>
    decreases |ts|
  {
    if ts == [] then Some([])
    else match FlagOf(ts[0])
      case None => None
      case Some(f) =>
        if IsSwitch(f) then
          match ReadParams(ts[1..])
          case None => None
          case Some(rest) => Some([Switch(f)] + rest)
        else if |ts| >= 2 then
          match ReadParams(ts[2..])
          case None => None
          case Some(rest) => Some([Named(f, ts[1])] + rest)
        else None
  }

  /** Each value is its own token: reading the tokens back yields the same
      parameters, even when a value is empty or spelled like a flag. */
  lemma {:induction false} ReadParamsInvertsTokens(ps: seq<Param>)
    requires forall i :: 0 <= i < |ps| ==> WellKinded(ps[i])
    ensures ReadParams(Tokens(ps)) == Some(ps)
    decreases |ps|
  {
    if ps != [] {
      var p := ps[0];
      var ts := Tokens(ps);
      assert ts == ParamTokens(p) + Tokens(ps[1..]);
      FlagOfSpelling(p.flag);
      ReadParamsInvertsTokens(ps[1..]);
      match p
      case Switch(f) =>
        assert ts[1..] == Tokens(ps[1..]);
      case Named(f, v) =>
        assert ts[1] == v;
        assert ts[2..] == Tokens(ps[1..]);
      assert [p] + ps[1..] == ps;
    }
  }

  /** The scripts under the `scripts` directory. */
  datatype Script =
    | ListScript | UninstallScript | StopScript | ScanScript | RenameScript | UpdateScript
    | MoveScript | CredentialsScript | StartScript | DownloadScript | InstallScript

  function FileName(s: Script): string {
    match s
    case ListScript => "list_distros.ps1"
    case UninstallScript => "uninstall_wsl_custom.ps1"
    case StopScript => "stop_instance.ps1"
    case ScanScript => "scan_wsl_instances.ps1"
    case RenameScript => "rename_instance.ps1"
    case UpdateScript => "update_distros.ps1"
    case MoveScript => "move_instance.ps1"
    case CredentialsScript => "set_credentials.ps1"
    case StartScript => "start_instance.ps1"
    case DownloadScript => "download_all_distros.ps1"
    case InstallScript => "install_wsl_custom.ps1"
  }

  /** The operations of the catalog, each with its own argument record. */
  datatype Operation =
    | List(forceUpdate: bool)
    | Unregister(name: string, force: bool)
    | Stop(name: string)
    | Scan
    | Rename(oldName: string, newName: string, newPath: string)
    | UpdateList(sourceUrl: string)
    | Move(name: string, newBasePath: string)
    | SetCredentials(name: string, user: string, password: string)
    | Start(name: string, openTerminal: bool, startPath: string)
    | DownloadOnly(family: string, version: string)
    | Install(family: string, version: string, name: string, installPath: string, user: string, password: string)

  function ScriptOf(op: Operation): Script {
    match op
    case List(_) => ListScript
    case Unregister(_, _) => UninstallScript
    case Stop(_) => StopScript
    case Scan => ScanScript
    case Rename(_, _, _) => RenameScript
    case UpdateList(_) => UpdateScript
    case Move(_, _) => MoveScript
    case SetCredentials(_, _, _) => CredentialsScript
    case Start(_, _, _) => StartScript
    case DownloadOnly(_, _) => DownloadScript
    case Install(_, _, _, _, _, _) => InstallScript
  }

  /** Some parameter in `ps` is for flag `f`. */
  predicate HasFlag(ps: seq<Param>, f: Flag) {
    exists i :: 0 <= i < |ps| && ps[i].flag == f
  }

  /** The parameters each operation passes. Optional parameters appear only
      when they carry something (a true switch, a non-empty value), and the
      mandatory name pairs come first. */
  function Params(op: Operation): (ps: seq<Param>)
    ensures forall i :: 0 <= i < |ps| ==> WellKinded(ps[i])
  {
    match op
    case List(forceUpdate) => SwitchIf(ForceUpdate, forceUpdate)
    case Unregister(name, force) => [Named(DistroName, name)] + SwitchIf(Force, force)
    case Stop(name) => [Named(DistroName, name)]
    case Scan => []
    case Rename(oldName, newName, newPath) =>
      [Named(OldName, oldName), Named(NewName, newName)] + Optional(NewPath, newPath)
    case UpdateList(sourceUrl) => Optional(SourceUrl, sourceUrl)
    case Move(name, newBasePath) => [Named(DistroName, name), Named(NewPath, newBasePath)]
    case SetCredentials(name, user, password) =>
      [Named(DistroName, name), Named(UserName, user)] + Optional(Password, password)
    case Start(name, openTerminal, startPath) =>
      [Named(DistroName, name)]
      + (if openTerminal then [Switch(OpenTerminal)] + Optional(StartPath, startPath) else [])
    case DownloadOnly(family, version) =>
      [Named(SelectFamily, family), Named(SelectVersion, version)]
    case Install(family, version, name, installPath, user, password) =>
      [ Named(SelectFamily, family), Named(SelectVersion, version), Named(DistroName, name)
      , Named(InstallPath, installPath), Named(User, user), Named(Pass, password) ]
  }

  /** A switch that is passed only when set. */
  function SwitchIf(f: Flag, on: bool): (ps: seq<Param>)
    requires IsSwitch(f)
    ensures HasFlag(ps, f) <==> on
    ensures on ==> ps == [Switch(f)]
    ensures !on ==> ps == []
  {
    if on then
      assert [Switch(f)][0].flag == f;
      [Switch(f)]
    else []
  }

  /** A named parameter that is passed only when its value is non-empty. */
  function Optional(f: Flag, v: string): (ps: seq<Param>)
    requires !IsSwitch(f)
    ensures HasFlag(ps, f) <==> v != ""
    ensures v != "" ==> ps == [Named(f, v)]
    ensures v == "" ==> ps == []
  {
    if v != "" then
      assert [Named(f, v)][0].flag == f;
      [Named(f, v)]
    else []
  }

  /** A flag is present in an appended list exactly when it is present in one
      of the halves. */
  lemma HasFlagAppend(a: seq<Param>, b: seq<Param>, f: Flag)
    ensures HasFlag(a + b, f) <==> HasFlag(a, f) || HasFlag(b, f)
  {
    if HasFlag(a + b, f) {
      var i :| 0 <= i < |a + b| && (a + b)[i].flag == f;
      if i >= |a| {
        assert b[i - |a|].flag == f;
      }
    }
    if HasFlag(a, f) {
      var i :| 0 <= i < |a| && a[i].flag == f;
      assert (a + b)[i].flag == f;
    }
    if HasFlag(b, f) {
      var i :| 0 <= i < |b| && b[i].flag == f;
      assert (a + b)[|a| + i].flag == f;
    }
  }

  /** Which parameters each operation passes: the mandatory ones first, in
      order, then each optional one exactly when its value is non-empty or its
      switch is set. */
  lemma ParamsShape(op: Operation)
    ensures op.List? ==> (HasFlag(Params(op), ForceUpdate) <==> op.forceUpdate)
    ensures op.Unregister? ==> Params(op)[0] == Named(DistroName, op.name) && (HasFlag(Params(op), Force) <==> op.force)
    ensures op.Stop? ==> Params(op) == [Named(DistroName, op.name)]
    ensures op.Scan? ==> Params(op) == []
    ensures op.Rename? ==>
              && Params(op)[..2] == [Named(OldName, op.oldName), Named(NewName, op.newName)]
              && (HasFlag(Params(op), NewPath) <==> op.newPath != "")
              && (op.newPath != "" ==> Named(NewPath, op.newPath) in Params(op))
    ensures op.UpdateList? ==>
              && (HasFlag(Params(op), SourceUrl) <==> op.sourceUrl != "")
              && (op.sourceUrl != "" ==> Named(SourceUrl, op.sourceUrl) in Params(op))
    ensures op.Move? ==> Params(op) == [Named(DistroName, op.name), Named(NewPath, op.newBasePath)]
    ensures op.SetCredentials? ==>
              && Params(op)[..2] == [Named(DistroName, op.name), Named(UserName, op.user)]
              && (HasFlag(Params(op), Password) <==> op.password != "")
              && (op.password != "" ==> Named(Password, op.password) in Params(op))
    ensures op.Start? ==>
              && Params(op)[0] == Named(DistroName, op.name)
              && (HasFlag(Params(op), OpenTerminal) <==> op.openTerminal)
              && (HasFlag(Params(op), StartPath) <==> op.openTerminal && op.startPath != "")
              && (op.openTerminal && op.startPath != "" ==> Named(StartPath, op.startPath) in Params(op))
    ensures op.DownloadOnly? ==> Params(op) == [Named(SelectFamily, op.family), Named(SelectVersion, op.version)]
    ensures op.Install? ==>
              Params(op) == [ Named(SelectFamily, op.family), Named(SelectVersion, op.version), Named(DistroName, op.name)
                            , Named(InstallPath, op.installPath), Named(User, op.user), Named(Pass, op.password) ]
  {
    match op
    case Unregister(name, force) =>
      HasFlagAppend([Named(DistroName, name)], SwitchIf(Force, force), Force);
      assert !HasFlag([Named(DistroName, name)], Force);
    case Rename(oldName, newName, newPath) =>
      var mandatory := [Named(OldName, oldName), Named(NewName, newName)];
      HasFlagAppend(mandatory, Optional(NewPath, newPath), NewPath);
      assert !HasFlag(mandatory, NewPath);
      assert Params(op)[..2] == mandatory;
    case SetCredentials(name, user, password) =>
      var mandatory := [Named(DistroName, name), Named(UserName, user)];
      HasFlagAppend(mandatory, Optional(Password, password), Password);
      assert !HasFlag(mandatory, Password);
      assert Params(op)[..2] == mandatory;
    case Start(name, openTerminal, startPath) =>
      StartShape(name, openTerminal, startPath);
    case _ =>
  }

  lemma StartShape(name: string, openTerminal: bool, startPath: string)
    ensures var ps := Params(Start(name, openTerminal, startPath));
            && (HasFlag(ps, OpenTerminal) <==> openTerminal)
            && (HasFlag(ps, StartPath) <==> openTerminal && startPath != "")
  {
    var head := [Named(DistroName, name)];
    var tail := if openTerminal then [Switch(OpenTerminal)] + Optional(StartPath, startPath) else [];
    assert !HasFlag(head, OpenTerminal) && !HasFlag(head, StartPath);
    HasFlagAppend(head, tail, OpenTerminal);
    HasFlagAppend(head, tail, StartPath);
    if openTerminal {
      HasFlagAppend([Switch(OpenTerminal)], Optional(StartPath, startPath), OpenTerminal);
      HasFlagAppend([Switch(OpenTerminal)], Optional(StartPath, startPath), StartPath);
      assert [Switch(OpenTerminal)][0].flag == OpenTerminal;
      assert !HasFlag([Switch(OpenTerminal)], StartPath);
    }
  }

  predicate NamedAt(ps: seq<Param>, i: nat, f: Flag) {
    i < |ps| && ps[i].Named? && ps[i].flag == f
  }

  /** Reads a script's parameter list back into the operation it stands for:
      a missing optional parameter reads as an empty value or a false switch. */
  function OperationOf(s: Script, ps: seq<Param>): Option<Operation> {
    match s
    case ListScript =>
      if ps == [] then Some(List(false))
      else if ps == [Switch(ForceUpdate)] then Some(List(true))
      else None
    case UninstallScript =>
      if |ps| == 1 && NamedAt(ps, 0, DistroName) then Some(Unregister(ps[0].value, false))
      else if |ps| == 2 && NamedAt(ps, 0, DistroName) && ps[1] == Switch(Force) then Some(Unregister(ps[0].value, true))
      else None
    case StopScript =>
      if |ps| == 1 && NamedAt(ps, 0, DistroName) then Some(Stop(ps[0].value)) else None
    case ScanScript =>
      if ps == [] then Some(Scan) else None
    case RenameScript =>
      if 2 <= |ps| <= 3 && NamedAt(ps, 0, OldName) && NamedAt(ps, 1, NewName) then
        if |ps| == 2 then Some(Rename(ps[0].value, ps[1].value, ""))
        else if NamedAt(ps, 2, NewPath) then Some(Rename(ps[0].value, ps[1].value, ps[2].value))
        else None
      else None
    case UpdateScript =>
      if ps == [] then Some(UpdateList(""))
      else if |ps| == 1 && NamedAt(ps, 0, SourceUrl) then Some(UpdateList(ps[0].value))
      else None
    case MoveScript =>
      if |ps| == 2 && NamedAt(ps, 0, DistroName) && NamedAt(ps, 1, NewPath) then Some(Move(ps[0].value, ps[1].value))
      else None
    case CredentialsScript =>
      if 2 <= |ps| <= 3 && NamedAt(ps, 0, DistroName) && NamedAt(ps, 1, UserName) then
        if |ps| == 2 then Some(SetCredentials(ps[0].value, ps[1].value, ""))
        else if NamedAt(ps, 2, Password) then Some(SetCredentials(ps[0].value, ps[1].value, ps[2].value))
        else None
      else None
    case StartScript =>
      if 1 <= |ps| <= 3 && NamedAt(ps, 0, DistroName) then
        if |ps| == 1 then Some(Start(ps[0].value, false, ""))
        else if ps[1] != Switch(OpenTerminal) then None
        else if |ps| == 2 then Some(Start(ps[0].value, true, ""))
        else if NamedAt(ps, 2, StartPath) then Some(Start(ps[0].value, true, ps[2].value))
        else None
      else None
    case DownloadScript =>
      if |ps| == 2 && NamedAt(ps, 0, SelectFamily) && NamedAt(ps, 1, SelectVersion) then
        Some(DownloadOnly(ps[0].value, ps[1].value))
      else None
    case InstallScript =>
      if && |ps| == 6 && NamedAt(ps, 0, SelectFamily) && NamedAt(ps, 1, SelectVersion) && NamedAt(ps, 2, DistroName)
         && NamedAt(ps, 3, InstallPath) && NamedAt(ps, 4, User) && NamedAt(ps, 5, Pass)
      then Some(Install(ps[0].value, ps[1].value, ps[2].value, ps[3].value, ps[4].value, ps[5].value))
      else None
  }

  /** The operation as its argument layout carries it: a start path is only
      passed along with `-OpenTerminal`, so without a terminal it is dropped. */
  function Effective(op: Operation): Operation {
    if op.Start? && !op.openTerminal then Start(op.name, false, "") else op
  }

  /** Nothing else is lost in an operation's parameters: each optional
      parameter is present exactly when its value is non-empty (or its switch
      is set), so the operation can be read back from its parameter list. */
  lemma OperationOfParams(op: Operation)
    ensures OperationOf(ScriptOf(op), Params(op)) == Some(Effective(op))
  {
    match op
    case List(f) => ReadBackList(f);
    case Unregister(n, f) => ReadBackUnregister(n, f);
    case Rename(o, n, p) => ReadBackRename(o, n, p);
    case UpdateList(u) => ReadBackUpdate(u);
    case SetCredentials(n, u, p) => ReadBackCredentials(n, u, p);
    case Start(n, t, p) => ReadBackStart(n, t, p);
    case Install(f, v, n, i, u, p) => ReadBackInstall(f, v, n, i, u, p);
    case _ =>
  }

  lemma ReadBackList(f: bool)
    ensures OperationOf(ListScript, Params(List(f))) == Some(List(f))
  {
  }

  lemma ReadBackUnregister(n: string, f: bool)
    ensures OperationOf(UninstallScript, Params(Unregister(n, f))) == Some(Unregister(n, f))
  {
    var ps := Params(Unregister(n, f));
    assert NamedAt(ps, 0, DistroName);
  }

  lemma ReadBackRename(o: string, n: string, p: string)
    ensures OperationOf(RenameScript, Params(Rename(o, n, p))) == Some(Rename(o, n, p))
  {
    var ps := Params(Rename(o, n, p));
    assert NamedAt(ps, 0, OldName) && NamedAt(ps, 1, NewName);
  }

  lemma ReadBackUpdate(u: string)
    ensures OperationOf(UpdateScript, Params(UpdateList(u))) == Some(UpdateList(u))
  {
  }

  lemma ReadBackCredentials(n: string, u: string, p: string)
    ensures OperationOf(CredentialsScript, Params(SetCredentials(n, u, p))) == Some(SetCredentials(n, u, p))
  {
    var ps := Params(SetCredentials(n, u, p));
    assert NamedAt(ps, 0, DistroName) && NamedAt(ps, 1, UserName);
  }

  lemma ReadBackStart(n: string, t: bool, p: string)
    ensures OperationOf(StartScript, Params(Start(n, t, p))) == Some(Effective(Start(n, t, p)))
  {
    var ps := Params(Start(n, t, p));
    assert NamedAt(ps, 0, DistroName);
    if t {
      assert ps[1] == Switch(OpenTerminal);
      if p != "" {
        assert |ps| == 3 && NamedAt(ps, 2, StartPath) && ps[2].value == p;
      } else {
        assert |ps| == 2;
      }
    } else {
      assert |ps| == 1;
    }
  }

  lemma ReadBackInstall(f: string, v: string, n: string, i: string, u: string, p: string)
    ensures OperationOf(InstallScript, Params(Install(f, v, n, i, u, p))) == Some(Install(f, v, n, i, u, p))
  {
  }

  /** The full argument vector of an operation run through the generic
      script runner. */
  function Invocation(root: string, op: Operation): seq<string> {
    CommandLine(root, FileName(ScriptOf(op)), Tokens(Params(op)))
  }

  /** The argument vector's layout carries the operation exactly: splitting
      it, reading its tokens with the idealised reader and decoding the
      parameters gives back `op`, up to the start path that is never passed
      without a terminal. */
  lemma InvocationDecodes(root: string, op: Operation)
    ensures
      var argv := Invocation(root, op);
      && SplitCommandLine(argv) == Some((ScriptPath(root, FileName(ScriptOf(op))), Tokens(Params(op))))
      && ReadParams(Tokens(Params(op))) == Some(Params(op))
      && OperationOf(ScriptOf(op), Params(op)) == Some(Effective(op))
  {
    SplitCommandLineInverts(root, FileName(ScriptOf(op)), Tokens(Params(op)));
    ReadParamsInvertsTokens(Params(op));
    OperationOfParams(op);
  }

  /** The listing command line: `-ForceUpdate` is appended when forced and is
      then the last token; nothing else differs. */
  function ListCommand(root: string, forceUpdate: bool): (argv: seq<string>)
    ensures |argv| > |Preamble|
    ensures argv[..|Preamble| + 1] == Preamble + [ScriptPath(root, "list_distros.ps1")]
    ensures forceUpdate ==> |argv| == |Preamble| + 2 && argv[|argv| - 1] == "-ForceUpdate"
    ensures !forceUpdate ==> |argv| == |Preamble| + 1
  {
    assert Tokens([Switch(ForceUpdate)]) == ["-ForceUpdate"];
    Invocation(root, List(forceUpdate))
  }

  /** How a process is launched: the program, its arguments, and whether the
      caller waits for it. */
  datatype Launch = Launch(program: string, argv: seq<string>, awaited: bool)

  /** `StartDistro`: with a terminal, the start script runs in a new window
      through `cmd /c start` and is not waited for; otherwise it runs hidden
      and is waited for. Both carry the same start-script command line. */
  function StartLaunch(root: string, name: string, openTerminal: bool, startPath: string): (l: Launch)
    ensures l.program == "cmd.exe" <==> openTerminal
    ensures !openTerminal ==> l.program == Interpreter
    ensures l.awaited <==> !openTerminal
    ensures openTerminal ==> |l.argv| >= 3 && l.argv[..3] == ["/c", "start", Interpreter]
    ensures var k := if openTerminal then 3 else 0;
            k <= |l.argv| && l.argv[k..] == Invocation(root, Start(name, openTerminal, startPath))
  {
    var argv := Invocation(root, Start(name, openTerminal, startPath));
    if openTerminal then Launch("cmd.exe", ["/c", "start", Interpreter] + argv, false)
    else Launch(Interpreter, argv, true)
  }
}

=== FILE: disk_size.dfy ===
/** `GetDistroSize`: the binary unit chosen for an instance's virtual disk
    size. The `%.1f` rendering of the scaled value is not modelled; the unit
    exponent and divisor are. */
module DiskSize {
  import opened Wrappers

  const Unit := 1024
  const Prefixes := "KMGTPE"

  /** The signed 64-bit range of the size reported by `os.Stat`. */
  const MinSize := -0x8000_0000_0000_0000
  const SizeBound := 0x8000_0000_0000_0000

  function Pow(b: nat, e: nat): nat {
    if e == 0 then 1 else b * Pow(b, e - 1)
  }

  /** How the size is reported: unknown when the disk file cannot be
      inspected, in bytes below one KiB, and otherwise as a multiple of
      `divisor == 1024^(exponent+1)` with unit letter `prefix`. */
  datatype SizeReport =
    | Unknown(error: string)
    | InBytes(bytes: int)
    | Scaled(divisor: int, exponent: nat, prefix: char)

  /** Euclidean division is determined by quotient and remainder. */
  lemma DivUnique(a: int, m: int, q: int, r: int)
    requires m > 0 && a == m * q + r && 0 <= r < m
    ensures a / m == q
  {
    var q0 := a / m;
    var r0 := a % m;
    assert m * q0 + r0 == m * q + r;
    if q0 < q {
      assert m * (q - q0) == r0 - r;
      MulAtLeast(m, q - q0);
    } else if q0 > q {
      assert m * (q0 - q) == r - r0;
      MulAtLeast(m, q0 - q);
    }
  }

  lemma MulAtLeast(m: int, k: int)
    requires m > 0 && k >= 1
    ensures m * k >= m
  {
  }

  /** For a non-negative numerator, dividing twice is dividing by the product. */
  lemma DivDiv(a: int, b: int, c: int)
    requires a >= 0 && b > 0 && c > 0
    ensures a / b / c == a / (b * c)
  {
    var q := a / b;
    var r := a % b;
    var q2 := q / c;
    var r2 := q % c;
    assert a == b * (c * q2 + r2) + r;
    assert b * (c * q2 + r2) == (b * c) * q2 + b * r2;
    assert b * r2 <= b * (c - 1) by {
      MulMonotone(b, r2, c - 1);
    }
    assert b * (c - 1) == b * c - b;
    DivUnique(a, b * c, q2, b * r2 + r);
  }

  lemma MulMonotone(m: int, x: int, y: int)
    requires m >= 0 && x <= y
    ensures m * x <= m * y
  {
    assert m * y - m * x == m * (y - x);
  }

  /** The unit-selection loop: start at KiB and move one unit up while the
      quotient is still at least 1024. The divisor never leaves the 64-bit
      range and the exponent always indexes the prefix letters. */
  method ChooseUnit(size: int) returns (r: SizeReport)
    requires MinSize <= size < SizeBound
    ensures r.InBytes? <==> size < Unit
    ensures r.InBytes? ==> r.bytes == size
    ensures r.Scaled? ==>
              && r.exponent < |Prefixes|
              && r.divisor == Pow(Unit, r.exponent + 1)
              && Unit <= r.divisor < SizeBound
              && 1 <= size / r.divisor < Unit
              && r.prefix == Prefixes[r.exponent]
    ensures !r.Unknown?
  {
    if size < Unit {
      return InBytes(size);
    }
    var div := Unit;
    var exp := 0;
    var n := size / Unit;
    while n >= Unit
      invariant 0 <= exp <= 5
      invariant div == Pow(Unit, exp + 1)
      invariant div >= Unit
      invariant n == size / div
      invariant 1 <= n
      decreases n
    {
      assert size >= Unit * div by {
        assert size / div >= Unit;
      }
      DivDiv(size, div, Unit);
      div := div * Unit;
      exp := exp + 1;
      n := n / Unit;
    }
    assert Pow(Unit, 6) == 0x1000_0000_0000_0000;
    assert div <= Pow(Unit, 6) by {
      PowMonotone(Unit, exp + 1, 6);
    }
    return Scaled(div, exp, Prefixes[exp]);
  }

  lemma PowMonotone(b: nat, e1: nat, e2: nat)
    requires b >= 1 && e1 <= e2
    ensures Pow(b, e1) <= Pow(b, e2)
    decreases e2
  {
    if e1 < e2 {
      PowMonotone(b, e1, e2 - 1);
    }
  }

  /** `GetDistroSize` over the result of `os.Stat` on the disk file. */
  method GetDistroSize(stat: Result<int, string>) returns (r: SizeReport)
    requires stat.Ok? ==> MinSize <= stat.value < SizeBound
    ensures stat.Err? ==> r == Unknown(stat.error)
    ensures stat.Ok? ==> !r.Unknown? && (r.InBytes? <==> stat.value < Unit)
    ensures stat.Ok? && r.InBytes? ==> r.bytes == stat.value
    ensures stat.Ok? && r.Scaled? ==>
              && r.exponent < |Prefixes|
              && r.divisor == Pow(Unit, r.exponent + 1)
              && Unit <= r.divisor < SizeBound
              && 1 <= stat.value / r.divisor < Unit
              && r.prefix == Prefixes[r.exponent]
  {
    match stat
    case Err(e) => return Unknown(e);
    case Ok(size) => r := ChooseUnit(size);
  }
}

=== FILE: installer.dfy ===
/** `RunInstallScript`: the install orchestrator. It launches the install
    script (falling back once to PowerShell Core when Windows PowerShell
    cannot be started), streams both output pipes to the log callback, and
    reports completion through `onFinish` exactly once. The background
    goroutine is modelled as the sequence of callbacks it makes. */
module Installer {
  import opened Wrappers
  import opened Text
  import opened Processes
  import Lines
  import Commands

  const Fallback := "pwsh"

  /** The user's choices in the install dialog. */
  datatype InstallRequest = InstallRequest(
    root: string,
    family: string,
    version: string,
    name: string,
    installPath: string,
    user: string,
    password: string)

  function InstallOperation(req: InstallRequest): Commands.Operation {
    Commands.Install(req.family, req.version, req.name, req.installPath, req.user, req.password)
  }

  /** The argument list the install is started with. */
  function InstallArgs(req: InstallRequest): seq<string> {
    Commands.Invocation(req.root, InstallOperation(req))
  }

  /** The install script's flags, in the order they are passed. */
  const InstallFlags: seq<Commands.Flag> :=
    [ Commands.SelectFamily, Commands.SelectVersion, Commands.DistroName
    , Commands.InstallPath, Commands.User, Commands.Pass ]

  /** The values passed with `InstallFlags`, in the same order. */
  function InstallValues(req: InstallRequest): seq<string> {
    [req.family, req.version, req.name, req.installPath, req.user, req.password]
  }

  /** The fixed argument list: the preamble, the script path, then six flag
      and value pairs, each value its own token even when empty: 17 tokens
      whatever the values. */
  lemma InstallArgsLayout(req: InstallRequest)
    ensures var argv := InstallArgs(req);
            && |argv| == 17
            && argv[..4] == Commands.Preamble
            && argv[4] == Commands.ScriptPath(req.root, "install_wsl_custom.ps1")
            && forall k :: 0 <= k < 6 ==>
                 argv[5 + 2 * k] == Commands.Spelling(InstallFlags[k]) && argv[6 + 2 * k] == InstallValues(req)[k]
  {
    var op := InstallOperation(req);
    var ps := Commands.Params(op);
    var ts := Commands.Tokens(ps);
    var argv := InstallArgs(req);
    assert Commands.FileName(Commands.ScriptOf(op)) == "install_wsl_custom.ps1";
    assert argv == Commands.CommandLine(req.root, "install_wsl_custom.ps1", ts);
    assert forall k :: 0 <= k < 6 ==> ps[k] == Commands.Named(InstallFlags[k], InstallValues(req)[k]);
    Commands.NamedTokens(ps);
    forall k | 0 <= k < 6
      ensures argv[5 + 2 * k] == Commands.Spelling(InstallFlags[k]) && argv[6 + 2 * k] == InstallValues(req)[k]
    {
      assert argv[5 + 2 * k] == ts[2 * k];
      assert argv[6 + 2 * k] == ts[2 * k + 1];
    }
  }

  /** The host's behaviour during one install. */
  datatype InstallHost = InstallHost(
    stdoutPipe: Option<string>,   // the error, when creating the stdout pipe fails
    stderrPipe: Option<string>,   // the error, when creating the stderr pipe fails
    primary: Spawn,               // starting Windows PowerShell
    fallbackStdoutPipe: Option<string>,   // the same two pipes, created again for PowerShell Core
    fallbackStderrPipe: Option<string>,
    fallback: Spawn,              // starting PowerShell Core
    stdout: string,
    stderr: string,
    schedule: seq<bool>,          // which pipe's reader delivers next (true: stdout)
    exit: Exit)

  datatype InstallError =
    | StdoutPipeFailed(detail: string)   // "failed to get stdout: ..."
    | StderrPipeFailed(detail: string)   // "failed to get stderr: ..."
    | StartFailed(detail: string)        // "failed to start PowerShell: ...", the fallback's error
    | ProcessFailed(exit: Exit)          // the error `Wait` returned

  datatype Stream = Stdout | Stderr

  /** The lines given to the log callback. */
  datatype LogLine =
    | Banner(name: string)                    // "--- Starting Installation: <name> ---"
    | CommandEcho(path: string, args: seq<string>)  // "Command: <path> <args joined by spaces>"
    | Output(stream: Stream, text: string)    // one scanned line of a pipe, newline re-appended
    | ExitCodeLine(code: int)                 // "Process finished with exit code: <code>"
    | Completed                               // "--- Installation Completed Successfully! ---"

  /** The string handed to the log callback: a scanned line is passed on
      verbatim; every line the orchestrator writes itself ends in a newline
      and quotes what it reports. */
  function Render(l: LogLine): (r: string)
    ensures l.Output? ==> r == l.text
    ensures !l.Output? ==> |r| > 0 && r[|r| - 1] == '\n'
    ensures l.Banner? ==> HasInfix(r, l.name)
    ensures l.CommandEcho? ==> HasInfix(r, l.path) && HasInfix(r, Join(l.args, " "))
    ensures l.ExitCodeLine? ==> HasInfix(r, IntToString(l.code))
  {
    match l
    case Banner(name) =>
      InfixOfConcat("--- Starting Installation: " + name + " ---\n", "--- Starting Installation: ", name, " ---\n");
      "--- Starting Installation: " + name + " ---\n"
    case CommandEcho(path, args) =>
      InfixOfConcat("Command: " + path + " " + Join(args, " ") + "\n", "Command: ", path, " " + Join(args, " ") + "\n");
      InfixOfConcat("Command: " + path + " " + Join(args, " ") + "\n", "Command: " + path + " ", Join(args, " "), "\n");
      "Command: " + path + " " + Join(args, " ") + "\n"
    case Output(_, text) => text
    case ExitCodeLine(code) =>
      InfixOfConcat("\nProcess finished with exit code: " + IntToString(code) + "\n", "\nProcess finished with exit code: ", IntToString(code), "\n");
      "\nProcess finished with exit code: " + IntToString(code) + "\n"
    case Completed => "\n--- Installation Completed Successfully! ---\n"
  }

  /** What the orchestrator does, in order: start attempts, log callbacks,
      and the completion callback. */
  datatype Event =
    | Attempt(program: string, argv: seq<string>)
    | Log(line: LogLine)
    | Finish(error: Option<InstallError>)
    | Panicked   // a reader goroutine panics, which ends the whole program

  predicate IsOutput(e: Event) {
    e.Log? && e.line.Output?
  }

  /** The two pipe readers' deliveries merged in the order `schedule` picks;
      once a pipe is drained the other's remaining lines follow. */
  function Interleave(outs: seq<string>, errs: seq<string>, schedule: seq<bool>): (r: seq<Event>)
    ensures |r| == |outs| + |errs|
    ensures forall i :: 0 <= i < |r| ==> IsOutput(r[i])
    ensures Project(r, Stdout) == outs
    ensures Project(r, Stderr) == errs
    decreases |outs| + |errs|
  {
    if outs == [] && errs == [] then []
    else if errs == [] || (outs != [] && schedule != [] && schedule[0]) then
      [Log(Output(Stdout, outs[0]))] + Interleave(outs[1..], errs, Rest(schedule))
    else
      [Log(Output(Stderr, errs[0]))] + Interleave(outs, errs[1..], Rest(schedule))
  }

  function Rest(schedule: seq<bool>): seq<bool> {
    if schedule == [] then [] else schedule[1..]
  }

  /** The texts one pipe contributed to a trace, in order. */
  function Project(events: seq<Event>, s: Stream): seq<string>
    decreases |events|
  {
    if events == [] then []
    else (if IsOutput(events[0]) && events[0].line.stream == s then [events[0].line.text] else [])
         + Project(events[1..], s)
  }

  /** Every event is a log callback. */
  predicate Logs(events: seq<Event>) {
    forall i :: 0 <= i < |events| ==> events[i].Log?
  }

  /** The error `onFinish` receives once `Wait` has returned. */
  function WaitResult(exit: Exit): Option<InstallError> {
    if exit.ExitedCleanly? then None else Some(ProcessFailed(exit))
  }

  /** The report after the process ended: the exit code line on a non-zero
      status, the success banner on a clean exit, then `onFinish`. */
  function Outcome(exit: Exit): (tail: seq<Event>)
    ensures |tail| > 0 && tail[|tail| - 1] == Finish(WaitResult(exit))
    ensures Logs(tail[..|tail| - 1])
    ensures exit.ExitedCleanly? ==> tail[..|tail| - 1] == [Log(Completed)]
    ensures exit.ExitStatus? ==> tail[..|tail| - 1] == [Log(ExitCodeLine(exit.code))]
    ensures exit.WaitFailed? ==> tail[..|tail| - 1] == []
  {
    match exit
    case ExitedCleanly => [Log(Completed), Finish(None)]
    case ExitStatus(code) => [Log(ExitCodeLine(code)), Finish(Some(ProcessFailed(exit)))]
    case WaitFailed(_) => [Finish(Some(ProcessFailed(exit)))]
  }

  /** The log callbacks from the moment a process started: the banner with
      the instance name, the command line, then the pipes' lines. */
  function Started(name: string, path: string, argv: seq<string>, host: InstallHost): (logs: seq<Event>)
    ensures Logs(logs)
    ensures |logs| >= 2 && logs[..2] == [Log(Banner(name)), Log(CommandEcho(path, argv))]
    ensures forall i :: 2 <= i < |logs| ==> IsOutput(logs[i])
  {
    var head := [Log(Banner(name)), Log(CommandEcho(path, argv))];
    var body := Interleave(Lines.Deliveries(host.stdout), Lines.Deliveries(host.stderr), host.schedule);
    assert forall i :: 2 <= i < |head + body| ==> (head + body)[i] == body[i - 2];
    head + body
  }

  /** From the moment a process started to the completion callback. */
  function Supervise(name: string, path: string, argv: seq<string>, host: InstallHost): (trace: seq<Event>)
    ensures |trace| > 0 && trace[|trace| - 1] == Finish(WaitResult(host.exit))
    ensures Logs(trace[..|trace| - 1])
  {
    var logs := Started(name, path, argv, host);
    var tail := Outcome(host.exit);
    var trace := logs + tail;
    assert trace[..|trace| - 1] == logs + tail[..|tail| - 1];
    trace
  }

  /** No event is a call to `onFinish`. */
  predicate NoFinish(events: seq<Event>) {
    forall i :: 0 <= i < |events| ==> !events[i].Finish?
  }

  /** No event is a start attempt. */
  predicate NoAttempt(events: seq<Event>) {
    forall i :: 0 <= i < |events| ==> !events[i].Attempt?
  }

  /** Both of PowerShell Core's pipes were created. */
  predicate FallbackPipesReady(host: InstallHost) {
    host.fallbackStdoutPipe.None? && host.fallbackStderrPipe.None?
  }

  /** Some process starts once the pipes are in place: Windows PowerShell,
      or PowerShell Core with both of its pipes. */
  predicate Launches(host: InstallHost) {
    host.primary.Spawned? || (FallbackPipesReady(host) && host.fallback.Spawned?)
  }

  /** The start attempts: Windows PowerShell, and PowerShell Core only when
      that start failed and its pipes were created, both with the same
      arguments. */
  function Tried(argv: seq<string>, host: InstallHost): (tried: seq<Event>)
    ensures NoFinish(tried)
  {
    if host.primary.Spawned? || !FallbackPipesReady(host) then [Attempt(Commands.Interpreter, argv)]
    else [Attempt(Commands.Interpreter, argv), Attempt(Fallback, argv)]
  }

  /** What follows the start attempts: the supervised run of whichever
      process started, PowerShell Core's pipe error, or its start error. */
  function AfterStart(name: string, argv: seq<string>, host: InstallHost): (rest: seq<Event>)
    ensures |rest| > 0 && rest[|rest| - 1].Finish?
    ensures NoFinish(rest[..|rest| - 1])
    ensures rest[|rest| - 1] == Finish(None) <==> Launches(host) && host.exit.ExitedCleanly?
    ensures NoAttempt(rest)
  {
    match host.primary
    case Spawned(path) => Supervise(name, path, argv, host)
    case SpawnFailed(_) =>
      if host.fallbackStdoutPipe.Some? then [Finish(Some(StdoutPipeFailed(host.fallbackStdoutPipe.value)))]
      else if host.fallbackStderrPipe.Some? then [Finish(Some(StderrPipeFailed(host.fallbackStderrPipe.value)))]
      else match host.fallback
        case Spawned(path) => Supervise(name, path, argv, host)
        case SpawnFailed(detail) => [Finish(Some(StartFailed(detail)))]
  }

  /** The goroutine's callbacks for an instance name and argument list, with
      PowerShell Core's pipe errors reported like Windows PowerShell's (the
      source discards them; see `RunAsWritten`). */
  function Run(name: string, argv: seq<string>, host: InstallHost): (trace: seq<Event>)
    ensures |trace| > 0 && trace[|trace| - 1].Finish?
    ensures NoFinish(trace[..|trace| - 1])
    ensures trace[|trace| - 1] == Finish(None) <==>
              && host.stdoutPipe.None? && host.stderrPipe.None?
              && Launches(host)
              && host.exit.ExitedCleanly?
  {
    if host.stdoutPipe.Some? then [Finish(Some(StdoutPipeFailed(host.stdoutPipe.value)))]
    else if host.stderrPipe.Some? then [Finish(Some(StderrPipeFailed(host.stderrPipe.value)))]
    else
      var tried := Tried(argv, host);
      var rest := AfterStart(name, argv, host);
      assert (tried + rest)[..|tried + rest| - 1] == tried + rest[..|rest| - 1];
      tried + rest
  }

  /** The callbacks `RunInstallScript` makes, in order: `onFinish` is the
      last of them and is made exactly there, with no error exactly when
      the pipes were created, a process started and it exited cleanly. */
  function RunInstallScript(req: InstallRequest, host: InstallHost): (trace: seq<Event>)
    ensures |trace| > 0 && trace[|trace| - 1].Finish?
    ensures NoFinish(trace[..|trace| - 1])
    ensures trace[|trace| - 1] == Finish(None) <==>
              && host.stdoutPipe.None? && host.stderrPipe.None?
              && Launches(host)
              && host.exit.ExitedCleanly?
  {
    Run(req.name, InstallArgs(req), host)
  }

  /** How many times `onFinish` is called in a trace. */
  function FinishCount(events: seq<Event>): nat
    decreases |events|
  {
    if events == [] then 0 else (if events[0].Finish? then 1 else 0) + FinishCount(events[1..])
  }

  lemma {:induction false} FinishCountLast(events: seq<Event>)
    requires |events| > 0 && events[|events| - 1].Finish?
    requires NoFinish(events[..|events| - 1])
    ensures FinishCount(events) == 1
    decreases |events|
  {
    if |events| > 1 {
      assert events[1..][..|events| - 2] == events[..|events| - 1][1..];
      FinishCountLast(events[1..]);
    }
  }

  /** With PowerShell Core's pipe errors reported, `onFinish` is called
      exactly once on every path, and last. */
  lemma FinishExactlyOnce(req: InstallRequest, host: InstallHost)
    ensures FinishCount(RunInstallScript(req, host)) == 1
  {
    FinishCountLast(RunInstallScript(req, host));
  }

  /** The goroutine exactly as written. PowerShell Core's pipes are created
      with their errors discarded, so when one of them cannot be created and
      PowerShell Core still starts, that pipe's reader is handed a nil
      reader and panics at its type assertion, which ends the program before
      `onFinish` is called. The panic is placed right after the two log
      lines, where the readers are launched. On every other host the
      goroutine behaves as `Run`. */
  function RunAsWritten(name: string, argv: seq<string>, host: InstallHost): (trace: seq<Event>)
    ensures !(host.stdoutPipe.None? && host.stderrPipe.None? && host.primary.SpawnFailed? && !FallbackPipesReady(host)) ==>
              trace == Run(name, argv, host)
  {
    if host.stdoutPipe.None? && host.stderrPipe.None? && host.primary.SpawnFailed? && !FallbackPipesReady(host) then
      [Attempt(Commands.Interpreter, argv), Attempt(Fallback, argv)]
      + (match host.fallback
         case SpawnFailed(detail) => [Finish(Some(StartFailed(detail)))]
         case Spawned(path) => [Log(Banner(name)), Log(CommandEcho(path, argv)), Panicked])
    else Run(name, argv, host)
  }

  /** As written, a pipe of PowerShell Core that cannot be created, followed
      by a successful start, ends the program without any call to
      `onFinish`. */
  lemma NilPipeNeverFinishes(name: string, argv: seq<string>, host: InstallHost)
    requires host.stdoutPipe.None? && host.stderrPipe.None?
    requires host.primary.SpawnFailed? && !FallbackPipesReady(host) && host.fallback.Spawned?
    ensures var trace := RunAsWritten(name, argv, host);
            && FinishCount(trace) == 0
            && trace[|trace| - 1] == Panicked
  {
    var trace := RunAsWritten(name, argv, host);
    assert trace == [Attempt(Commands.Interpreter, argv), Attempt(Fallback, argv),
                     Log(Banner(name)), Log(CommandEcho(host.fallback.path, argv)), Panicked];
    NoFinishCount(trace);
  }

  lemma {:induction false} NoFinishCount(events: seq<Event>)
    requires NoFinish(events)
    ensures FinishCount(events) == 0
    decreases |events|
  {
    if events != [] {
      NoFinishCount(events[1..]);
    }
  }

  /** With PowerShell Core's pipe errors reported (the corrected run), a pipe
      that cannot be created is reported to `onFinish` with that pipe's error
      and nothing else happens: before any start for Windows PowerShell's
      pipes, right after its failed start for PowerShell Core's. As written,
      only Windows PowerShell's pipe errors are reported. */
  lemma PipeFailureReported(name: string, argv: seq<string>, host: InstallHost)
    ensures host.stdoutPipe.Some? ==>
              Run(name, argv, host) == [Finish(Some(StdoutPipeFailed(host.stdoutPipe.value)))]
    ensures host.stdoutPipe.None? && host.stderrPipe.Some? ==>
              Run(name, argv, host) == [Finish(Some(StderrPipeFailed(host.stderrPipe.value)))]
    ensures host.stdoutPipe.None? && host.stderrPipe.None? && host.primary.SpawnFailed?
            && host.fallbackStdoutPipe.Some? ==>
              Run(name, argv, host)
              == [Attempt(Commands.Interpreter, argv), Finish(Some(StdoutPipeFailed(host.fallbackStdoutPipe.value)))]
    ensures host.stdoutPipe.None? && host.stderrPipe.None? && host.primary.SpawnFailed?
            && host.fallbackStdoutPipe.None? && host.fallbackStderrPipe.Some? ==>
              Run(name, argv, host)
              == [Attempt(Commands.Interpreter, argv), Finish(Some(StderrPipeFailed(host.fallbackStderrPipe.value)))]
  {
  }

  /** The start attempts of a trace, in order. */
  function Attempts(events: seq<Event>): seq<Event>
    decreases |events|
  {
    if events == [] then []
    else (if events[0].Attempt? then [events[0]] else []) + Attempts(events[1..])
  }

  /** With PowerShell Core's pipe errors reported (the corrected run):
      nothing is attempted when a pipe cannot be created; otherwise Windows
      PowerShell is tried, and PowerShell Core only when that start failed
      and its own pipes were created, with the same arguments. */
  lemma FallbackAtMostOnce(name: string, argv: seq<string>, host: InstallHost)
    ensures var attempts := Attempts(Run(name, argv, host));
            && (host.stdoutPipe.Some? || host.stderrPipe.Some? ==> attempts == [])
            && (host.stdoutPipe.None? && host.stderrPipe.None? && host.primary.Spawned? ==>
                  attempts == [Attempt(Commands.Interpreter, argv)])
            && (host.stdoutPipe.None? && host.stderrPipe.None? && host.primary.SpawnFailed?
                && FallbackPipesReady(host) ==>
                  attempts == [Attempt(Commands.Interpreter, argv), Attempt(Fallback, argv)])
            && (host.stdoutPipe.None? && host.stderrPipe.None? && host.primary.SpawnFailed?
                && !FallbackPipesReady(host) ==>
                  attempts == [Attempt(Commands.Interpreter, argv)])
  {
    if host.stdoutPipe.None? && host.stderrPipe.None? {
      var tried := Tried(argv, host);
      var rest := AfterStart(name, argv, host);
      assert Run(name, argv, host) == tried + rest;
      AttemptsAppend(tried, rest);
      NoAttempts(rest);
      if host.primary.Spawned? || !FallbackPipesReady(host) {
        assert Attempts(tried) == tried by { assert tried[1..] == []; }
      } else {
        assert Attempts(tried) == tried by { assert tried[1..][1..] == []; }
      }
    }
  }

  /** The fallback rule as written: nothing is attempted when one of Windows
      PowerShell's pipes cannot be created; otherwise Windows PowerShell is
      tried, and PowerShell Core exactly when that start failed, whether or
      not PowerShell Core's own pipes were created, with the same
      arguments. */
  lemma FallbackAsWritten(name: string, argv: seq<string>, host: InstallHost)
    ensures var attempts := Attempts(RunAsWritten(name, argv, host));
            && (host.stdoutPipe.Some? || host.stderrPipe.Some? ==> attempts == [])
            && (host.stdoutPipe.None? && host.stderrPipe.None? && host.primary.Spawned? ==>
                  attempts == [Attempt(Commands.Interpreter, argv)])
            && (host.stdoutPipe.None? && host.stderrPipe.None? && host.primary.SpawnFailed? ==>
                  attempts == [Attempt(Commands.Interpreter, argv), Attempt(Fallback, argv)])
  {
    if host.stdoutPipe.None? && host.stderrPipe.None? && host.primary.SpawnFailed? && !FallbackPipesReady(host) {
      var tried := [Attempt(Commands.Interpreter, argv), Attempt(Fallback, argv)];
      var rest := RunAsWritten(name, argv, host)[2..];
      assert RunAsWritten(name, argv, host) == tried + rest;
      AttemptsAppend(tried, rest);
      assert NoAttempt(rest);
      NoAttempts(rest);
      assert Attempts(tried) == tried by { assert tried[1..][1..] == []; }
    } else {
      FallbackAtMostOnce(name, argv, host);
    }
  }

  lemma {:induction false} AttemptsAppend(a: seq<Event>, b: seq<Event>)
    ensures Attempts(a + b) == Attempts(a) + Attempts(b)
    decreases |a|
  {
    if a == [] {
      assert a + b == b;
    } else {
      assert (a + b)[1..] == a[1..] + b;
      AttemptsAppend(a[1..], b);
    }
  }

  lemma {:induction false} NoAttempts(events: seq<Event>)
    requires NoAttempt(events)
    ensures Attempts(events) == []
    decreases |events|
  {
    if events != [] {
      NoAttempts(events[1..]);
    }
  }

  /** The argument list's layout carries exactly the user's choices: read
      with the idealised token reader it decodes to the request, whatever
      the values, including empty ones. */
  lemma InstallArgsDecode(req: InstallRequest)
    ensures var argv := InstallArgs(req);
            && Commands.SplitCommandLine(argv) == Some((Commands.ScriptPath(req.root, "install_wsl_custom.ps1"), argv[5..]))
            && Commands.ReadParams(argv[5..]).Some?
            && Commands.OperationOf(Commands.InstallScript, Commands.ReadParams(argv[5..]).value) == Some(InstallOperation(req))
  {
    var op := InstallOperation(req);
    var argv := InstallArgs(req);
    var ts := Commands.Tokens(Commands.Params(op));
    assert Commands.ScriptOf(op) == Commands.InstallScript;
    assert Commands.FileName(Commands.InstallScript) == "install_wsl_custom.ps1";
    assert argv == Commands.CommandLine(req.root, "install_wsl_custom.ps1", ts);
    assert argv[5..] == ts;
    assert Commands.Effective(op) == op;
    Commands.InvocationDecodes(req.root, op);
  }

  /** When both starts fail nothing is logged: the two attempts are followed
      directly by `onFinish` with PowerShell Core's start error. */
  lemma NothingLoggedWithoutStart(name: string, argv: seq<string>, host: InstallHost)
    requires host.stdoutPipe.None? && host.stderrPipe.None?
    requires host.primary.SpawnFailed? && FallbackPipesReady(host) && host.fallback.SpawnFailed?
    ensures Run(name, argv, host)
         == [Attempt(Commands.Interpreter, argv), Attempt(Fallback, argv), Finish(Some(StartFailed(host.fallback.detail)))]
  {
  }

  /** The process that started: Windows PowerShell, or else PowerShell Core. */
  function StartedPath(host: InstallHost): string
    requires Launches(host)
  {
    if host.primary.Spawned? then host.primary.path else host.fallback.path
  }

  /** Once a process started, the trace is the start attempts followed by
      the supervised run of that process. */
  lemma StartedTrace(name: string, argv: seq<string>, host: InstallHost)
    requires host.stdoutPipe.None? && host.stderrPipe.None?
    requires Launches(host)
    ensures Run(name, argv, host) == Tried(argv, host) + Supervise(name, StartedPath(host), argv, host)
  {
  }

  /** Once a process started, the banner and the command line are logged
      before any output line, right after the start attempts. */
  lemma BannerBeforeOutput(name: string, argv: seq<string>, host: InstallHost)
    requires host.stdoutPipe.None? && host.stderrPipe.None?
    requires Launches(host)
    ensures var trace := Run(name, argv, host);
            var n := |Tried(argv, host)|;
            && |trace| > n + 1
            && trace[n] == Log(Banner(name))
            && trace[n + 1] == Log(CommandEcho(StartedPath(host), argv))
            && forall i :: 0 <= i < n + 2 ==> !IsOutput(trace[i])
  {
    StartedTrace(name, argv, host);
    var sup := Supervise(name, StartedPath(host), argv, host);
    var logs := Started(name, StartedPath(host), argv, host);
    assert sup[..2] == logs[..2];
  }

  /** The end of a supervised run: the success banner on a clean exit, the
      exit code line on a non-zero status, the last output line or the
      command line when waiting failed; then `onFinish`. */
  lemma SuperviseEnds(name: string, path: string, argv: seq<string>, host: InstallHost)
    ensures var sup := Supervise(name, path, argv, host);
            && |sup| >= 3
            && (host.exit.ExitedCleanly? ==> sup[|sup| - 2] == Log(Completed))
            && (host.exit.ExitStatus? ==> sup[|sup| - 2] == Log(ExitCodeLine(host.exit.code)))
            && (host.exit.WaitFailed? ==> sup[|sup| - 2].Log? && !sup[|sup| - 2].line.ExitCodeLine?
                                           && !sup[|sup| - 2].line.Completed?)
  {
    var logs := Started(name, path, argv, host);
    var tail := Outcome(host.exit);
    var sup := logs + tail;
    if host.exit.WaitFailed? {
      assert sup[|sup| - 2] == logs[|logs| - 1];
      if |logs| == 2 {
        assert logs[1] == logs[..2][1];
      } else {
        assert IsOutput(logs[|logs| - 1]);
      }
    } else {
      assert sup[|sup| - 2] == tail[0];
    }
  }

  /** A clean run logs the success banner just before `onFinish(nil)`; a
      non-zero exit status logs the code just before `onFinish` receives the
      wait error; a failed wait logs neither. */
  lemma ExitReported(name: string, argv: seq<string>, host: InstallHost)
    requires host.stdoutPipe.None? && host.stderrPipe.None?
    requires Launches(host)
    ensures var trace := Run(name, argv, host);
            && |trace| >= 4
            && trace[|trace| - 1] == Finish(WaitResult(host.exit))
            && (host.exit.ExitedCleanly? ==> trace[|trace| - 2] == Log(Completed))
            && (host.exit.ExitStatus? ==> trace[|trace| - 2] == Log(ExitCodeLine(host.exit.code)))
            && (host.exit.WaitFailed? ==> trace[|trace| - 2].Log? && !trace[|trace| - 2].line.ExitCodeLine?
                                           && !trace[|trace| - 2].line.Completed?)
  {
    StartedTrace(name, argv, host);
    SuperviseEnds(name, StartedPath(host), argv, host);
    var tried := Tried(argv, host);
    var sup := Supervise(name, StartedPath(host), argv, host);
    var trace := tried + sup;
    assert trace[|trace| - 1] == sup[|sup| - 1];
    assert trace[|trace| - 2] == sup[|sup| - 2];
  }

  /** Each pipe's lines reach the log in the scanner's order. */
  lemma SuperviseProjects(name: string, path: string, argv: seq<string>, host: InstallHost)
    ensures Project(Supervise(name, path, argv, host), Stdout) == Lines.Deliveries(host.stdout)
    ensures Project(Supervise(name, path, argv, host), Stderr) == Lines.Deliveries(host.stderr)
  {
    var head := [Log(Banner(name)), Log(CommandEcho(path, argv))];
    var body := Interleave(Lines.Deliveries(host.stdout), Lines.Deliveries(host.stderr), host.schedule);
    var tail := Outcome(host.exit);
    assert Supervise(name, path, argv, host) == (head + body) + tail;
    ProjectAppend(head + body, tail, Stdout);
    ProjectAppend(head + body, tail, Stderr);
    ProjectAppend(head, body, Stdout);
    ProjectAppend(head, body, Stderr);
    NoOutputProjects(head, Stdout);
    NoOutputProjects(head, Stderr);
    NoOutputProjects(tail, Stdout);
    NoOutputProjects(tail, Stderr);
  }

  /** The lines each pipe contributed to a trace are exactly what the line
      scanner delivers for that pipe, in order, newline re-appended; when no
      process started there are none. */
  lemma StreamsForwarded(name: string, argv: seq<string>, host: InstallHost)
    ensures var trace := Run(name, argv, host);
            var started := host.stdoutPipe.None? && host.stderrPipe.None? && Launches(host);
            && Project(trace, Stdout) == (if started then Lines.Deliveries(host.stdout) else [])
            && Project(trace, Stderr) == (if started then Lines.Deliveries(host.stderr) else [])
  {
    var trace := Run(name, argv, host);
    if host.stdoutPipe.None? && host.stderrPipe.None? {
      var tried := Tried(argv, host);
      var rest := AfterStart(name, argv, host);
      assert trace == tried + rest;
      ProjectAppend(tried, rest, Stdout);
      ProjectAppend(tried, rest, Stderr);
      NoOutputProjects(tried, Stdout);
      NoOutputProjects(tried, Stderr);
      if Launches(host) {
        SuperviseProjects(name, StartedPath(host), argv, host);
      } else {
        NoOutputProjects(rest, Stdout);
        NoOutputProjects(rest, Stderr);
      }
    } else {
      NoOutputProjects(trace, Stdout);
      NoOutputProjects(trace, Stderr);
    }
  }

  lemma {:induction false} ProjectAppend(a: seq<Event>, b: seq<Event>, s: Stream)
    ensures Project(a + b, s) == Project(a, s) + Project(b, s)
    decreases |a|
  {
    if a == [] {
      assert a + b == b;
    } else {
      var own := Project([a[0]], s);
      ProjectCons(a[0], a[1..] + b, s);
      ProjectCons(a[0], a[1..], s);
      assert a + b == [a[0]] + (a[1..] + b);
      assert a == [a[0]] + a[1..];
      ProjectAppend(a[1..], b, s);
      assert own + (Project(a[1..], s) + Project(b, s)) == (own + Project(a[1..], s)) + Project(b, s);
    }
  }

  lemma ProjectCons(e: Event, rest: seq<Event>, s: Stream)
    ensures Project([e] + rest, s) == Project([e], s) + Project(rest, s)
  {
    assert ([e] + rest)[1..] == rest;
    assert [e][1..] == [];
  }

  lemma {:induction false} NoOutputProjects(events: seq<Event>, s: Stream)
    requires forall i :: 0 <= i < |events| ==> !IsOutput(events[i])
    ensures Project(events, s) == []
    decreases |events|
  {
    if events != [] {
      NoOutputProjects(events[1..], s);
    }
  }
}

=== FILE: instances.dfy ===
/** The instance directory: the listing script's payload decoded into
    instance records, the release-label fallback for running instances, and
    the registration check built on the listing. */
module Instances {
  import opened Wrappers
  import opened Text
  import Commands

  /** One managed instance, as the listing script reports it. */
  datatype WslInstance = WslInstance(
    name: string,
    basePath: string,
    state: string,
    wslVersion: string,
    release: string,
    user: string,
    installTime: string,
    diskSize: string)

  const Running := "Running"

  /** The host process runner: the standard output of a successful run of
      `program` with `args`, or the error text. */
  type Exec = (string, seq<string>) -> Result<string, string>

  /** The JSON decoder, as two partial functions: the payload read as an
      array of records, and read as one record. */
  datatype JsonDecoder = JsonDecoder(
    asList: string -> Result<seq<WslInstance>, string>,
    asRecord: string -> Result<WslInstance, string>)

  // ---------------------------------------------------------------------
  // Release label

  const PrettyKey := "PRETTY_NAME="

  /** Characters the captured group `[^"\n]` accepts. */
  predicate IsValueChar(c: char) {
    c != '"' && c != '\n'
  }

  /** Length of the longest prefix made of value characters. */
  function ValueRun(s: string): (n: nat)
    ensures n <= |s|
    ensures forall i :: 0 <= i < n ==> IsValueChar(s[i])
    ensures n < |s| ==> !IsValueChar(s[n])
    decreases |s|
  {
    if s != [] && IsValueChar(s[0]) then 1 + ValueRun(s[1..]) else 0
  }

  /** The key occurs at position `p`. */
  predicate KeyAt(out: string, p: nat) {
    p + |PrettyKey| <= |out| && out[p..p + |PrettyKey|] == PrettyKey
  }

  /** What follows the key: an optional opening quote, then a greedy
      non-empty run of value characters. When the quote is present but no
      value follows it, nothing matches (the quote itself is not a value
      character, so the optional quote cannot be skipped either). */
  function ValueAfterKey(rest: string): (r: Option<string>)
    ensures r.Some? ==> |r.value| > 0 && forall i :: 0 <= i < |r.value| ==> IsValueChar(r.value[i])
  {
    var body := if rest != [] && rest[0] == '"' then rest[1..] else rest;
    var n := ValueRun(body);
    if n > 0 then Some(body[..n]) else None
  }

  /** The pattern `PRETTY_NAME="?([^"\n]+)"?` tried at position `p`. */
  function MatchAt(out: string, p: nat): (r: Option<string>)
    ensures r.Some? ==> |r.value| > 0 && forall i :: 0 <= i < |r.value| ==> IsValueChar(r.value[i])
  {
    if KeyAt(out, p) then ValueAfterKey(out[p + |PrettyKey|..]) else None
  }

  /** The leftmost match at or after `p`, as `FindSubmatch` reports it. */
  function FindPrettyName(out: string, p: nat): (r: Option<string>)
    requires p <= |out|
    decreases |out| - p
  {
    match MatchAt(out, p)
    case Some(v) => Some(v)
    case None => if p == |out| then None else FindPrettyName(out, p + 1)
  }

  /** The pattern matches nowhere in `[p, q)`. */
  predicate NoMatchIn(out: string, p: nat, q: nat) {
    forall k :: p <= k < q ==> MatchAt(out, k).None?
  }

  /** The search finds nothing exactly when the pattern matches nowhere from
      `p` on, and otherwise reports the leftmost match. */
  lemma {:induction false} FindPrettyNameLeftmost(out: string, p: nat)
    requires p <= |out|
    ensures FindPrettyName(out, p).None? <==> NoMatchIn(out, p, |out| + 1)
    ensures FindPrettyName(out, p).Some? ==>
              exists q :: p <= q <= |out| && MatchAt(out, q) == FindPrettyName(out, p) && NoMatchIn(out, p, q)
    decreases |out| - p
  {
    if MatchAt(out, p).Some? {
      assert NoMatchIn(out, p, p);
    } else if p < |out| {
      FindPrettyNameLeftmost(out, p + 1);
      if FindPrettyName(out, p + 1).Some? {
        var q :| p + 1 <= q <= |out| && MatchAt(out, q) == FindPrettyName(out, p + 1) && NoMatchIn(out, p + 1, q);
        NoMatchExtend(out, p, q);
      } else {
        NoMatchExtend(out, p, |out| + 1);
      }
    }
  }

  lemma NoMatchExtend(out: string, p: nat, q: nat)
    requires p < q && MatchAt(out, p).None?
    ensures NoMatchIn(out, p + 1, q) <==> NoMatchIn(out, p, q)
  {
  }

  /** The `PRETTY_NAME` value of an os-release text, if the pattern matches. */
  function PrettyName(out: string): (r: Option<string>)
    ensures r.Some? ==> |r.value| > 0 && forall i :: 0 <= i < |r.value| ==> IsValueChar(r.value[i])
  {
    FindPrettyNameValue(out, 0);
    FindPrettyName(out, 0)
  }

  lemma FindPrettyNameValue(out: string, p: nat)
    requires p <= |out|
    ensures var r := FindPrettyName(out, p);
            r.Some? ==> |r.value| > 0 && forall i :: 0 <= i < |r.value| ==> IsValueChar(r.value[i])
    decreases |out| - p
  {
    if MatchAt(out, p).None? && p < |out| {
      FindPrettyNameValue(out, p + 1);
    }
  }

  /** An os-release text that starts with the key and a quoted value
      yields that value, without its quotes, whatever follows. */
  lemma PrettyNameQuoted(v: string, tail: string)
    requires |v| > 0 && forall i :: 0 <= i < |v| ==> IsValueChar(v[i])
    ensures PrettyName(PrettyKey + "\"" + v + "\"" + tail) == Some(v)
  {
    var out := PrettyKey + "\"" + v + "\"" + tail;
    assert out[..|PrettyKey|] == PrettyKey;
    var rest := out[|PrettyKey|..];
    assert rest == "\"" + v + "\"" + tail;
    var body := rest[1..];
    assert body == v + "\"" + tail;
    ValueRunStops(body, |v|);
    assert body[..|v|] == v;
  }

  /** An unquoted value runs to the end of its line. */
  lemma PrettyNameBare(v: string, tail: string)
    requires |v| > 0 && v[0] != '"' && forall i :: 0 <= i < |v| ==> IsValueChar(v[i])
    ensures PrettyName(PrettyKey + v + "\n" + tail) == Some(v)
  {
    var out := PrettyKey + v + "\n" + tail;
    assert out[..|PrettyKey|] == PrettyKey;
    var rest := out[|PrettyKey|..];
    assert rest == v + "\n" + tail;
    ValueRunStops(rest, |v|);
    assert rest[..|v|] == v;
  }

  /** `ValueRun` is pinned down by where the first non-value character sits. */
  lemma ValueRunStops(s: string, n: nat)
    requires n < |s| && !IsValueChar(s[n]) && forall i :: 0 <= i < n ==> IsValueChar(s[i])
    ensures ValueRun(s) == n
  {
  }

  /** The command that prints an instance's os-release file. */
  const ReleaseProbe := "wsl"

  function ReleaseProbeArgs(name: string): seq<string> {
    ["-d", name, "cat", "/etc/os-release"]
  }

  /** `GetDistroReleaseInfo`: the `PRETTY_NAME` of a running instance, the
      generic label `Linux` when its os-release has none, and the empty label
      for a stopped instance or a failed probe. */
  function GetDistroReleaseInfo(name: string, state: string, exec: Exec): (r: string)
    ensures state != Running ==> r == ""
    ensures r != "" <==> state == Running && exec(ReleaseProbe, ReleaseProbeArgs(name)).Ok?
    ensures (state == Running && exec(ReleaseProbe, ReleaseProbeArgs(name)).Ok?
             && PrettyName(exec(ReleaseProbe, ReleaseProbeArgs(name)).value).None?) ==> r == "Linux"
    ensures (state == Running && exec(ReleaseProbe, ReleaseProbeArgs(name)).Ok?
             && PrettyName(exec(ReleaseProbe, ReleaseProbeArgs(name)).value).Some?) ==>
              r == PrettyName(exec(ReleaseProbe, ReleaseProbeArgs(name)).value).value
    ensures r != "" && r != "Linux" ==> forall i :: 0 <= i < |r| ==> IsValueChar(r[i])
  {
    if state != Running then ""
    else match exec(ReleaseProbe, ReleaseProbeArgs(name))
      case Err(_) => ""
      case Ok(out) =>
        match PrettyName(out)
        case Some(v) => v
        case None => "Linux"
  }

  /** The label of a running instance read against the os-release text: the
      empty label when the probe fails, `Linux` when the pattern matches
      nowhere, and otherwise the value of the leftmost match. */
  lemma ReleaseLabelIsLeftmostMatch(name: string, exec: Exec)
    ensures var probe := exec(ReleaseProbe, ReleaseProbeArgs(name));
            var r := GetDistroReleaseInfo(name, Running, exec);
            && (probe.Err? ==> r == "")
            && (probe.Ok? && NoMatchIn(probe.value, 0, |probe.value| + 1) ==> r == "Linux")
            && (probe.Ok? && !NoMatchIn(probe.value, 0, |probe.value| + 1) ==>
                  exists q :: 0 <= q <= |probe.value| && MatchAt(probe.value, q) == Some(r)
                              && NoMatchIn(probe.value, 0, q))
  {
    var probe := exec(ReleaseProbe, ReleaseProbeArgs(name));
    if probe.Ok? {
      FindPrettyNameLeftmost(probe.value, 0);
    }
  }

  // ---------------------------------------------------------------------
  // Enrichment

  /** Only a running instance without a label is probed. */
  predicate NeedsRelease(d: WslInstance) {
    d.state == Running && d.release == ""
  }

  function EnrichOne(d: WslInstance, exec: Exec): WslInstance {
    if NeedsRelease(d) then d.(release := GetDistroReleaseInfo(d.name, d.state, exec)) else d
  }

  /** The enrichment pass of `ListDistros`: same length and order, every field
      but the label kept, and the label filled in only where it was missing
      on a running instance. */
  function Enrich(ds: seq<WslInstance>, exec: Exec): (r: seq<WslInstance>)
    ensures |r| == |ds|
    ensures forall i :: 0 <= i < |ds| ==> r[i].(release := ds[i].release) == ds[i]
    ensures forall i :: 0 <= i < |ds| && !NeedsRelease(ds[i]) ==> r[i] == ds[i]
    ensures forall i :: 0 <= i < |ds| && NeedsRelease(ds[i]) ==>
              r[i].release == GetDistroReleaseInfo(ds[i].name, Running, exec)
    decreases |ds|
  {
    if ds == [] then [] else [EnrichOne(ds[0], exec)] + Enrich(ds[1..], exec)
  }

  /** A property of the model rather than of the source, which enriches a
      listing once: because the probe is a function of its arguments, a
      second pass changes nothing, since whatever label the first pass could
      not fill is probed again with the same answer. */
  lemma EnrichIdempotent(ds: seq<WslInstance>, exec: Exec)
    ensures Enrich(Enrich(ds, exec), exec) == Enrich(ds, exec)
  {
    var once := Enrich(ds, exec);
    var twice := Enrich(once, exec);
    forall i | 0 <= i < |ds| ensures twice[i] == once[i] {
      if NeedsRelease(once[i]) {
        assert NeedsRelease(ds[i]);
      }
    }
  }

  // ---------------------------------------------------------------------
  // Listing

  datatype ListError =
    | ExecFailed(detail: string)
    | ParseFailed(detail: string, raw: string)

  /** The error text: both failures quote their cause, and a parse failure
      also quotes the raw payload. */
  function ListErrorMessage(e: ListError): (m: string)
    ensures HasInfix(m, e.detail)
    ensures e.ParseFailed? ==> HasInfix(m, e.raw)
  {
    match e
    case ExecFailed(detail) =>
      InfixOfConcat("failed to execute list script: " + detail, "failed to execute list script: ", detail, "");
      "failed to execute list script: " + detail
    case ParseFailed(detail, raw) =>
      InfixOfConcat("failed to parse json: " + detail + " (output: " + raw + ")", "failed to parse json: ", detail, " (output: " + raw + ")");
      InfixOfConcat("failed to parse json: " + detail + " (output: " + raw + ")", "failed to parse json: " + detail + " (output: ", raw, ")");
      "failed to parse json: " + detail + " (output: " + raw + ")"
  }

  /** The decode step of `ListDistros`: empty output is an empty listing; an
      array is taken as is; a lone object becomes a one-element listing;
      otherwise the error carries the array decoder's error and quotes the
      payload. */
  function DecodeListing(output: string, json: JsonDecoder): (r: Result<seq<WslInstance>, ListError>)
    ensures output == "" ==> r == Ok([])
    ensures output != "" && json.asList(output).Ok? ==> r == Ok(json.asList(output).value)
    ensures output != "" && json.asList(output).Err? && json.asRecord(output).Ok? ==>
              r == Ok([json.asRecord(output).value])
    ensures r.Err? <==> output != "" && json.asList(output).Err? && json.asRecord(output).Err?
    ensures r.Err? ==> r.error.ParseFailed? && r.error.raw == output
                       && HasInfix(ListErrorMessage(r.error), output)
    ensures r.Err? ==> r.error.detail == json.asList(output).error
  {
    if |output| == 0 then Ok([])
    else match json.asList(output)
      case Ok(ds) => Ok(ds)
      case Err(e) =>
        match json.asRecord(output)
        case Ok(single) => Ok([single])
        case Err(_) => Err(ParseFailure(e, output))
  }

  function ParseFailure(detail: string, raw: string): (e: ListError)
    ensures e == ParseFailed(detail, raw)
    ensures HasInfix(ListErrorMessage(e), raw)
  {
    var e := ParseFailed(detail, raw);
    var k := |"failed to parse json: " + detail + " (output: "|;
    assert ListErrorMessage(e)[k..k + |raw|] == raw;
    assert OccursAt(ListErrorMessage(e), raw, k);
    e
  }

  /** `ListDistros`: runs the listing script (with `-ForceUpdate` when forced),
      decodes its payload and enriches the records. */
  function ListDistros(root: string, forceUpdate: bool, exec: Exec, json: JsonDecoder): (r: Result<seq<WslInstance>, ListError>)
    ensures exec(Commands.Interpreter, Commands.ListCommand(root, forceUpdate)).Err? ==>
              r == Err(ExecFailed(exec(Commands.Interpreter, Commands.ListCommand(root, forceUpdate)).error))
    ensures exec(Commands.Interpreter, Commands.ListCommand(root, forceUpdate)).Ok? ==>
              var decoded := DecodeListing(exec(Commands.Interpreter, Commands.ListCommand(root, forceUpdate)).value, json);
              && (r.Ok? <==> decoded.Ok?)
              && (r.Ok? ==> r.value == Enrich(decoded.value, exec))
              && (r.Ok? ==> |r.value| == |decoded.value|
                            && forall i :: 0 <= i < |r.value| ==> r.value[i].(release := decoded.value[i].release) == decoded.value[i])
              && (r.Err? ==> r.error == decoded.error)
  {
    match exec(Commands.Interpreter, Commands.ListCommand(root, forceUpdate))
    case Err(e) => Err(ExecFailed(e))
    case Ok(out) =>
      match DecodeListing(out, json)
      case Err(e) => Err(e)
      case Ok(ds) => Ok(Enrich(ds, exec))
  }

  // ---------------------------------------------------------------------
  // Registration

  /** Some listed instance has the name, ignoring case. */
  predicate Registered(ds: seq<WslInstance>, name: string) {
    exists i :: 0 <= i < |ds| && EqualFold(ds[i].name, name)
  }

  /** `IsDistroRegistered`: lists without forcing an update and scans the
      records for the name, ignoring case; a listing error is returned with
      the answer false. */
  method IsDistroRegistered(root: string, name: string, exec: Exec, json: JsonDecoder)
    returns (found: bool, err: Option<ListError>)
    ensures var listing := ListDistros(root, false, exec, json);
            && (err.Some? <==> listing.Err?)
            && (err.Some? ==> err.value == listing.error && !found)
            && (listing.Ok? ==> (found <==> Registered(listing.value, name)))
  {
    var listing := ListDistros(root, false, exec, json);
    if listing.Err? {
      return false, Some(listing.error);
    }
    found := FindName(listing.value, name);
    err := None;
  }

  /** The scan over the listed records: stops at the first name equal to the
      query ignoring case. */
  method FindName(ds: seq<WslInstance>, name: string) returns (found: bool)
    ensures found <==> Registered(ds, name)
  {
    var i := 0;
    while i < |ds|
      invariant 0 <= i <= |ds|
      invariant forall j :: 0 <= j < i ==> !EqualFold(ds[j].name, name)
    {
      if EqualFold(ds[i].name, name) {
        return true;
      }
      i := i + 1;
    }
    return false;
  }

  /** Registration does not depend on letter case in the query. */
  lemma RegisteredIgnoresCase(ds: seq<WslInstance>, a: string, b: string)
    requires EqualFold(a, b)
    ensures Registered(ds, a) <==> Registered(ds, b)
  {
    if Registered(ds, a) {
      var i :| 0 <= i < |ds| && EqualFold(ds[i].name, a);
      assert EqualFold(ds[i].name, b);
    }
    if Registered(ds, b) {
      var i :| 0 <= i < |ds| && EqualFold(ds[i].name, b);
      assert EqualFold(ds[i].name, a);
    }
  }

  /** A listed "Ubuntu" answers a query for "UBUNTU". */
  lemma UpperCaseQueryFindsInstance(d: WslInstance, ds: seq<WslInstance>)
    requires d.name == "Ubuntu" && d in ds
    ensures Registered(ds, "UBUNTU")
  {
    var i :| 0 <= i < |ds| && ds[i] == d;
    assert EqualFold(ds[i].name, "UBUNTU");
  }
}

=== FILE: invoker.dfy ===
/** `RunPowerShellScript`: runs one script and turns the process outcome into
    the error value handed back to the caller, forwarding output lines when a
    callback is given. */
module Invoker {
  import opened Wrappers
  import opened Text
  import opened Processes
  import opened Lines
  import Commands

  /** The host's behaviour for one script run. */
  datatype ScriptProcess = ScriptProcess(
    stdoutPipe: Option<string>,   // the error, when creating the stdout pipe fails
    stderrPipe: Option<string>,   // the error, when creating the stderr pipe fails
    spawn: Spawn,
    stdout: string,
    stderr: string,
    combined: string,             // both streams as `CombinedOutput` collects them
    exit: Exit)

  /** The error values the runner returns. */
  datatype ScriptError =
    | ScriptFailed(output: string, cause: string)   // without a callback: output and cause together
    | ExitedWithCode(code: int)                     // with a callback: the exit status only
    | Raw(detail: string)                           // a pipe, start or wait error passed through

  /** The error text the caller sees: the captured output and its cause are
      both quoted, the exit code is printed, and any other error is passed
      through unchanged. */
  function Message(e: ScriptError): (m: string)
    ensures e.ScriptFailed? ==> HasInfix(m, e.output) && HasInfix(m, e.cause)
    ensures e.ExitedWithCode? ==> HasInfix(m, IntToString(e.code))
    ensures e.Raw? ==> m == e.detail
  {
    match e
    case ScriptFailed(output, cause) =>
      InfixOfConcat("script failed: " + output + " (" + cause + ")", "script failed: ", output, " (" + cause + ")");
      InfixOfConcat("script failed: " + output + " (" + cause + ")", "script failed: " + output + " (", cause, ")");
      "script failed: " + output + " (" + cause + ")"
    case ExitedWithCode(code) =>
      InfixOfConcat("script exited with code " + IntToString(code), "script exited with code ", IntToString(code), "");
      "script exited with code " + IntToString(code)
    case Raw(detail) => detail
  }

  /** What the caller observes: the strings passed to the output callback, in
      order, and the returned error. */
  datatype ScriptRun = ScriptRun(delivered: seq<string>, error: Option<ScriptError>)

  /** The streaming mode reaches `Start` only when both pipes were created. */
  predicate PipesReady(p: ScriptProcess) {
    p.stdoutPipe.None? && p.stderrPipe.None?
  }

  /** The run succeeds: the process started (after its pipes, when streaming)
      and exited cleanly. */
  predicate Succeeds(streaming: bool, p: ScriptProcess) {
    (streaming ==> PipesReady(p)) && p.spawn.Spawned? && p.exit.ExitedCleanly?
  }

  /** The host's report on a launch, for each program and argument vector. */
  type ScriptHost = (string, seq<string>) -> ScriptProcess

  /** The process the runner launches: Windows PowerShell with the canonical
      command line of `script` and the caller's `args`. */
  function Launched(root: string, script: string, args: seq<string>, host: ScriptHost): ScriptProcess {
    host(Commands.Interpreter, Commands.CommandLine(root, script, args))
  }

  /** One call of the runner. Without a callback the combined output is only
      surfaced inside the error; with one, stdout is read to its end before
      stderr and every line is forwarded, and a non-zero exit is reduced to
      its code. */
  function RunPowerShellScript(root: string, script: string, args: seq<string>, streaming: bool, host: ScriptHost): (r: ScriptRun)
    ensures var p := Launched(root, script, args, host);
            r.error.None? <==> Succeeds(streaming, p)
    ensures !streaming ==> r.delivered == []
    ensures var p := Launched(root, script, args, host);
            streaming && PipesReady(p) && p.spawn.Spawned? ==> r.delivered == Deliveries(p.stdout + p.stderr)
    ensures var p := Launched(root, script, args, host);
            streaming && !(PipesReady(p) && p.spawn.Spawned?) ==> r.delivered == []
    ensures var p := Launched(root, script, args, host);
            streaming && PipesReady(p) && p.spawn.Spawned? && p.exit.ExitStatus? ==>
              r.error == Some(ExitedWithCode(p.exit.code))
    ensures var p := Launched(root, script, args, host);
            !streaming && r.error.Some? ==>
              && r.error.value.ScriptFailed?
              && HasInfix(Message(r.error.value), r.error.value.output)
              && r.error.value.output == (if p.spawn.Spawned? then p.combined else "")
    ensures var p := Launched(root, script, args, host);
            !streaming && p.spawn.SpawnFailed? ==> r.error == Some(ScriptFailed("", p.spawn.detail))
    ensures var p := Launched(root, script, args, host);
            !streaming && p.spawn.Spawned? && !p.exit.ExitedCleanly? ==>
              r.error == Some(ScriptFailed(p.combined, ExitErrorText(p.exit)))
    ensures var p := Launched(root, script, args, host);
            streaming && p.stdoutPipe.Some? ==> r.error == Some(Raw(p.stdoutPipe.value))
    ensures var p := Launched(root, script, args, host);
            streaming && p.stdoutPipe.None? && p.stderrPipe.Some? ==> r.error == Some(Raw(p.stderrPipe.value))
    ensures var p := Launched(root, script, args, host);
            streaming && PipesReady(p) && p.spawn.SpawnFailed? ==> r.error == Some(Raw(p.spawn.detail))
    ensures var p := Launched(root, script, args, host);
            streaming && PipesReady(p) && p.spawn.Spawned? && p.exit.WaitFailed? ==>
              r.error == Some(Raw(p.exit.detail))
  {
    var p := Launched(root, script, args, host);
    if !streaming then
      match p.spawn
      case SpawnFailed(detail) => ScriptRun([], Some(CapturedFailure("", detail)))
      case Spawned(_) =>
        if p.exit.ExitedCleanly? then ScriptRun([], None)
        else ScriptRun([], Some(CapturedFailure(p.combined, ExitErrorText(p.exit))))
    else if p.stdoutPipe.Some? then ScriptRun([], Some(Raw(p.stdoutPipe.value)))
    else if p.stderrPipe.Some? then ScriptRun([], Some(Raw(p.stderrPipe.value)))
    else match p.spawn
      case SpawnFailed(detail) => ScriptRun([], Some(Raw(detail)))
      case Spawned(_) =>
        var lines := Deliveries(p.stdout + p.stderr);
        match p.exit
        case ExitedCleanly => ScriptRun(lines, None)
        case ExitStatus(code) => ScriptRun(lines, Some(ExitedWithCode(code)))
        case WaitFailed(detail) => ScriptRun(lines, Some(Raw(detail)))
  }

  /** The captured-mode error; its message quotes the output verbatim. */
  function CapturedFailure(output: string, cause: string): (e: ScriptError)
    ensures e.ScriptFailed? && e.output == output
    ensures HasInfix(Message(e), output)
  {
    var e := ScriptFailed(output, cause);
    assert Message(e)[|"script failed: "|..|"script failed: "| + |output|] == output;
    assert OccursAt(Message(e), output, |"script failed: "|);
    e
  }

  /** When a script's stdout ends with a newline, the callback sees all its
      stdout lines, then all its stderr lines, each unaltered. */
  lemma StreamedStdoutFirst(root: string, script: string, args: seq<string>, host: ScriptHost)
    requires var p := Launched(root, script, args, host);
             && PipesReady(p) && p.spawn.Spawned?
             && (p.stdout == [] || p.stdout[|p.stdout| - 1] == '\n')
    ensures var p := Launched(root, script, args, host);
            RunPowerShellScript(root, script, args, true, host).delivered == Deliveries(p.stdout) + Deliveries(p.stderr)
  {
    var p := Launched(root, script, args, host);
    ConcatenatedStreams(p.stdout, p.stderr);
  }
}

=== FILE: lines.dfy ===
/** Line-by-line delivery of process output: `bufio.ScanLines` tokenisation
    and the `scanOutput` loop that forwards each token with a newline
    re-appended. */
module Lines {

  /** Strips one trailing carriage return, as `bufio.ScanLines` does. */
  function DropCR(s: string): string {
    if |s| > 0 && s[|s| - 1] == '\r' then s[..|s| - 1] else s
  }

  /** Index of the first newline at or after `k`, or `|s|` when there is none. */
  function NewlineFrom(s: string, k: nat): (i: nat)
    requires k <= |s|
    ensures k <= i <= |s|
    ensures forall j :: k <= j < i ==> s[j] != '\n'
    ensures i < |s| ==> s[i] == '\n'
    decreases |s| - k
  {
    if k == |s| || s[k] == '\n' then k else NewlineFrom(s, k + 1)
  }

  /** Index of the first newline, or `|s|` when there is none. */
  function NewlineIndex(s: string): (i: nat)
    ensures i <= |s|
    ensures forall j :: 0 <= j < i ==> s[j] != '\n'
    ensures i < |s| ==> s[i] == '\n'
  {
    NewlineFrom(s, 0)
  }

  /** `NewlineIndex` is characterised by its contract: any index with no
      newline before it and a newline at it (or at the end) is that index. */
  lemma NewlineIndexUnique(s: string, i: nat)
    requires i <= |s| && (forall j :: 0 <= j < i ==> s[j] != '\n') && (i < |s| ==> s[i] == '\n')
    ensures NewlineIndex(s) == i
  {
  }

  /** A newline at the front of `post` is the first newline of `pre + post`
      when `pre` has none. */
  lemma NewlineAfter(pre: string, post: string)
    requires '\n' !in pre && post != [] && post[0] == '\n'
    ensures NewlineIndex(pre + post) == |pre|
  {
    assert (pre + post)[..|pre|] == pre;
    NewlineIndexUnique(pre + post, |pre|);
  }

  /** Appending after a newline does not move the first newline. */
  lemma NewlineBefore(pre: string, post: string)
    requires NewlineIndex(pre) < |pre|
    ensures NewlineIndex(pre + post) == NewlineIndex(pre)
  {
    var k := NewlineIndex(pre);
    assert (pre + post)[..k] == pre[..k];
    NewlineIndexUnique(pre + post, k);
  }

  /** The tokens `bufio.ScanLines` yields: split at each newline, one
      trailing carriage return dropped per token, and a final unterminated
      line yielded as a token of its own. */
  function ScanLines(s: string): seq<string>
    decreases |s|
  {
    if s == [] then []
    else
      var i := NewlineIndex(s);
      if i < |s| then [DropCR(s[..i])] + ScanLines(s[i + 1..])
      else [DropCR(s)]
  }

  /** Appends the newline that `scanOutput` re-attaches to every token. */
  function Terminated(lines: seq<string>): seq<string>
    decreases |lines|
  {
    if lines == [] then [] else [lines[0] + "\n"] + Terminated(lines[1..])
  }

  /** The strings `scanOutput` hands to its callback for one stream. */
  function Deliveries(s: string): seq<string> {
    Terminated(ScanLines(s))
  }

  /** Joins delivered strings back into one. */
  function Concat(parts: seq<string>): string
    decreases |parts|
  {
    if parts == [] then "" else parts[0] + Concat(parts[1..])
  }

  /** No token holds a newline. */
  lemma {:induction false} ScanLinesHaveNoNewline(s: string)
    ensures forall k :: 0 <= k < |ScanLines(s)| ==> '\n' !in ScanLines(s)[k]
    decreases |s|
  {
    if s != [] {
      var i := NewlineIndex(s);
      if i < |s| {
        ScanLinesStep(s);
        ScanLinesHaveNoNewline(s[i + 1..]);
        var ls := ScanLines(s);
        forall k | 0 <= k < |ls| ensures '\n' !in ls[k] {
          if k > 0 {
            assert ls[k] == ScanLines(s[i + 1..])[k - 1];
          }
        }
      }
    }
  }

  /** Each token is delivered in place with a newline appended. */
  lemma {:induction false} TerminatedAt(lines: seq<string>)
    ensures |Terminated(lines)| == |lines|
    ensures forall k :: 0 <= k < |lines| ==> Terminated(lines)[k] == lines[k] + "\n"
    decreases |lines|
  {
    if lines != [] {
      TerminatedAt(lines[1..]);
      var out := Terminated(lines);
      forall k | 1 <= k < |lines| ensures out[k] == lines[k] + "\n" {
        assert out[k] == Terminated(lines[1..])[k - 1];
      }
    }
  }

  /** Every delivery is one line ending in its newline: no delivered string
      holds a line break anywhere else. */
  lemma DeliveriesAreSingleLines(s: string)
    ensures forall k :: 0 <= k < |Deliveries(s)| ==>
              var d := Deliveries(s)[k];
              |d| > 0 && d[|d| - 1] == '\n' && '\n' !in d[..|d| - 1]
  {
    var ls := ScanLines(s);
    ScanLinesHaveNoNewline(s);
    TerminatedAt(ls);
    forall k | 0 <= k < |ls|
      ensures var d := Deliveries(s)[k]; |d| > 0 && d[|d| - 1] == '\n' && '\n' !in d[..|d| - 1]
    {
      var d := Deliveries(s)[k];
      assert d == ls[k] + "\n";
      assert d[..|d| - 1] == ls[k];
    }
  }

  /** One step of tokenisation: the text before the first newline is the
      first delivery, and the rest follows. */
  lemma DeliveriesStep(s: string)
    requires NewlineIndex(s) < |s|
    ensures var i := NewlineIndex(s);
            Deliveries(s) == [DropCR(s[..i]) + "\n"] + Deliveries(s[i + 1..])
  {
    var i := NewlineIndex(s);
    ScanLinesStep(s);
    TerminatedCons(DropCR(s[..i]), ScanLines(s[i + 1..]));
  }

  lemma ScanLinesStep(s: string)
    requires NewlineIndex(s) < |s|
    ensures ScanLines(s) == [DropCR(s[..NewlineIndex(s)])] + ScanLines(s[NewlineIndex(s) + 1..])
  {
    assert s != [];
  }

  lemma TerminatedCons(x: string, rest: seq<string>)
    ensures Terminated([x] + rest) == [x + "\n"] + Terminated(rest)
  {
    assert ([x] + rest)[1..] == rest;
  }

  /** A stream with no newline at all is one delivery when non-empty. */
  lemma DeliveriesLast(s: string)
    requires s != [] && NewlineIndex(s) == |s|
    ensures Deliveries(s) == [DropCR(s) + "\n"]
  {
    assert ScanLines(s) == [DropCR(s)] + [];
    TerminatedCons(DropCR(s), []);
  }

  lemma NoCarriageReturnInSlice(s: string, lo: nat, hi: nat)
    requires lo <= hi <= |s| && '\r' !in s
    ensures '\r' !in s[lo..hi]
  {
  }

  lemma ConcatCons(x: string, rest: seq<string>)
    ensures Concat([x] + rest) == x + Concat(rest)
  {
    assert ([x] + rest)[1..] == rest;
  }

  /** What joining a stream's deliveries gives back: the stream itself, with
      a newline added when its last line was unterminated. */
  function Closed(s: string): string {
    if s == [] || s[|s| - 1] == '\n' then s else s + "\n"
  }

  /** No line is split or merged: for a stream without carriage returns,
      joining the deliveries rebuilds the stream, plus a final newline when
      the stream's last line was unterminated. */
  lemma {:induction false} DeliveriesRejoin(s: string)
    requires '\r' !in s
    ensures Concat(Deliveries(s)) == Closed(s)
    decreases |s|
  {
    if s != [] {
      var i := NewlineIndex(s);
      if i < |s| {
        var rest := s[i + 1..];
        NoCarriageReturnInSlice(s, i + 1, |s|);
        DeliveriesRejoin(rest);
        RejoinStep(s);
      } else {
        RejoinOnlyLine(s);
      }
    }
  }

  lemma RejoinStep(s: string)
    requires '\r' !in s && NewlineIndex(s) < |s|
    requires Concat(Deliveries(s[NewlineIndex(s) + 1..])) == Closed(s[NewlineIndex(s) + 1..])
    ensures Concat(Deliveries(s)) == Closed(s)
  {
    RejoinFirstLine(s);
    ClosedFirstLine(s);
  }

  lemma RejoinFirstLine(s: string)
    requires '\r' !in s && NewlineIndex(s) < |s|
    ensures Concat(Deliveries(s)) == s[..NewlineIndex(s)] + "\n" + Concat(Deliveries(s[NewlineIndex(s) + 1..]))
  {
    var i := NewlineIndex(s);
    var head := s[..i];
    NoCarriageReturnInSlice(s, 0, i);
    assert DropCR(head) == head;
    DeliveriesStep(s);
    ConcatCons(head + "\n", Deliveries(s[i + 1..]));
  }

  lemma ClosedFirstLine(s: string)
    requires NewlineIndex(s) < |s|
    ensures s[..NewlineIndex(s)] + "\n" + Closed(s[NewlineIndex(s) + 1..]) == Closed(s)
  {
    var i := NewlineIndex(s);
    var head := s[..i];
    var rest := s[i + 1..];
    assert [s[i]] == "\n";
    assert s == head + [s[i]] + rest;
    ClosedAfterNewline(head, rest);
  }

  lemma ClosedAfterNewline(head: string, rest: string)
    ensures Closed(head + "\n" + rest) == head + "\n" + Closed(rest)
  {
    var s := head + "\n" + rest;
    if rest == [] {
      assert s == head + "\n";
    } else {
      assert s[|s| - 1] == rest[|rest| - 1];
      if rest[|rest| - 1] != '\n' {
        assert s + "\n" == head + "\n" + (rest + "\n");
      }
    }
  }

  lemma RejoinOnlyLine(s: string)
    requires '\r' !in s && s != [] && NewlineIndex(s) == |s|
    ensures Concat(Deliveries(s)) == Closed(s)
  {
    assert s[..|s|] == s;
    assert DropCR(s) == s;
    DeliveriesLast(s);
    ConcatCons(s + "\n", []);
  }

  /** Tokenising two sources read one after the other (Go's
      `io.MultiReader`) yields the tokens of each in turn when the first ends
      with a newline. */
  lemma {:induction false} ScanLinesAppend(first: string, second: string)
    requires first == [] || first[|first| - 1] == '\n'
    ensures ScanLines(first + second) == ScanLines(first) + ScanLines(second)
    decreases |first|
  {
    if first == [] {
      assert first + second == second;
    } else {
      var i := NewlineIndex(first);
      assert i < |first|;
      NewlineBefore(first, second);
      var rest := first[i + 1..];
      assert (first + second)[..i] == first[..i];
      assert (first + second)[i + 1..] == rest + second;
      ScanLinesAppend(rest, second);
    }
  }

  /** With `io.MultiReader`, when the first source ends with a newline its
      lines are all delivered before any line of the second, and neither is
      altered. */
  lemma ConcatenatedStreams(first: string, second: string)
    requires first == [] || first[|first| - 1] == '\n'
    ensures Deliveries(first + second) == Deliveries(first) + Deliveries(second)
  {
    ScanLinesAppend(first, second);
    TerminatedAppend(ScanLines(first), ScanLines(second));
  }

  lemma {:induction false} TerminatedAppend(a: seq<string>, b: seq<string>)
    ensures Terminated(a + b) == Terminated(a) + Terminated(b)
    decreases |a|
  {
    if a == [] {
      assert a + b == b;
    } else {
      var x := a[0] + "\n";
      assert (a + b)[0] == a[0];
      assert (a + b)[1..] == a[1..] + b;
      assert Terminated(a + b) == [x] + Terminated(a[1..] + b);
      TerminatedAppend(a[1..], b);
      assert Terminated(a) == [x] + Terminated(a[1..]);
      assert [x] + (Terminated(a[1..]) + Terminated(b)) == ([x] + Terminated(a[1..])) + Terminated(b);
    }
  }

  /** Distinct token lists are delivered differently. */
  lemma {:induction false} TerminatedInjective(a: seq<string>, b: seq<string>)
    requires Terminated(a) == Terminated(b)
    ensures a == b
  {
    TerminatedAt(a);
    TerminatedAt(b);
    forall k | 0 <= k < |a| ensures a[k] == b[k] {
      assert Terminated(a)[k] == a[k] + "\n";
      assert Terminated(b)[k] == b[k] + "\n";
      assert a[k] == (a[k] + "\n")[..|a[k]|];
      assert b[k] == (b[k] + "\n")[..|b[k]|];
    }
  }

  /** With `io.MultiReader`, an unterminated last line of the first source is
      joined with the first line of the second. */
  lemma UnterminatedLineMerges()
    ensures Deliveries("out" + "err\n") == ["outerr\n"]
  {
    var s := "out" + "err\n";
    assert s[..6] == "outerr" && s[7..] == [];
    NewlineIndexUnique(s, 6);
    DeliveriesStep(s);
    assert DropCR("outerr") == "outerr";
    assert Deliveries([]) == [];
    assert "outerr" + "\n" == "outerr\n";
  }

  /** A one-character line followed by its newline is delivered as is. */
  lemma ShortLineStep(c: char, rest: string)
    requires c != '\n' && c != '\r'
    ensures Deliveries([c, '\n'] + rest) == [[c, '\n']] + Deliveries(rest)
  {
    var s := [c, '\n'] + rest;
    assert s[..1] == [c] && s[2..] == rest;
    NewlineIndexUnique(s, 1);
    DeliveriesStep(s);
    assert DropCR([c]) == [c];
    assert [c] + "\n" == [c, '\n'];
  }

  /** Three newline-terminated lines arrive as three deliveries, in order. */
  lemma ThreeLines()
    ensures Deliveries("A\nB\nC\n") == ["A\n", "B\n", "C\n"]
  {
    ShortLineStep('C', "");
    assert Deliveries("") == [];
    assert "C\n" == ['C', '\n'] + "";
    ShortLineStep('B', "C\n");
    assert "B\nC\n" == ['B', '\n'] + "C\n";
    ShortLineStep('A', "B\nC\n");
    assert "A\nB\nC\n" == ['A', '\n'] + "B\nC\n";
  }

  /** Windows line endings: the carriage return is removed before the newline
      is re-appended. */
  lemma CarriageReturnsDropped()
    ensures Deliveries("A\r\nB") == ["A\n", "B\n"]
  {
    var s := "A\r\nB";
    assert s[..2] == "A\r" && s[3..] == "B";
    NewlineIndexUnique(s, 2);
    DeliveriesStep(s);
    assert "B"[..1] == "B";
    NewlineIndexUnique("B", 1);
    DeliveriesLast("B");
    assert DropCR("A\r") == "A";
    assert DropCR("B") == "B";
    assert "A" + "\n" == "A\n" && "B" + "\n" == "B\n";
  }

  /** A newline right after a newline-free prefix closes the current line. */
  lemma DeliveriesAtNewline(line: string, rest: string)
    requires '\n' !in line && rest != [] && rest[0] == '\n'
    ensures Deliveries(line + rest) == [DropCR(line) + "\n"] + Deliveries(rest[1..])
  {
    NewlineAfter(line, rest);
    var t := line + rest;
    assert t[..|line|] == line && t[|line| + 1..] == rest[1..];
    DeliveriesStep(t);
  }

  /** Reading a newline completes the pending line. */
  lemma CloseLine(line: string, stream: string, i: nat)
    requires '\n' !in line && i < |stream| && stream[i] == '\n'
    ensures Deliveries(line + stream[i..]) == [DropCR(line) + "\n"] + Deliveries(stream[i + 1..])
  {
    DeliveriesAtNewline(line, stream[i..]);
    assert stream[i..][1..] == stream[i + 1..];
  }

  /** Reading any other character extends the pending line. */
  lemma ExtendLine(line: string, stream: string, i: nat)
    requires i < |stream|
    ensures (line + [stream[i]]) + stream[i + 1..] == line + stream[i..]
  {
    assert stream[i..] == [stream[i]] + stream[i + 1..];
  }

  /** `scanOutput`: reads the stream character by character and forwards
      every completed token with a newline re-appended. */
  method ScanOutput(stream: string) returns (delivered: seq<string>)
    ensures delivered == Deliveries(stream)
  {
    delivered := [];
    var line := "";
    var i := 0;
    assert line + stream[i..] == stream;
    while i < |stream|
      invariant 0 <= i <= |stream|
      invariant '\n' !in line
      invariant Deliveries(stream) == delivered + Deliveries(line + stream[i..])
    {
      if stream[i] == '\n' {
        CloseLine(line, stream, i);
        delivered := delivered + [DropCR(line) + "\n"];
        line := "";
        assert line + stream[i + 1..] == stream[i + 1..];
      } else {
        ExtendLine(line, stream, i);
        line := line + [stream[i]];
      }
      i := i + 1;
    }
    assert line + stream[i..] == line;
    if |line| > 0 {
      NewlineIndexUnique(line, |line|);
      DeliveriesLast(line);
      delivered := delivered + [DropCR(line) + "\n"];
    }
  }
}

=== FILE: processes.dfy ===
/** The host process runner, seen from the orchestration layer only through
    what it reports: whether a process started, and how it ended. */
module Processes {
  import opened Text

  /** Starting a process: the resolved executable path, or the start error. */
  datatype Spawn = Spawned(path: string) | SpawnFailed(detail: string)

  /** Waiting for a started process: a clean exit, an exit error carrying the
      platform exit status, or any other wait error. */
  datatype Exit = ExitedCleanly | ExitStatus(code: int) | WaitFailed(detail: string)

  /** The text of the error `Wait` returns. On Windows an exit error reads
      `exit status N` in decimal for codes below 65536 and in hexadecimal,
      `0x` first, for larger ones (and for negative ones, read as unsigned
      64-bit values). */
  function ExitErrorText(e: Exit): string
    requires !e.ExitedCleanly?
  {
    match e
    case ExitStatus(code) =>
      if 0 <= code < 0x1_0000 then "exit status " + NatToString(code)
      else "exit status 0x" + HexDigits(code % 0x1_0000_0000_0000_0000)
    case WaitFailed(detail) => detail
  }
}

=== FILE: text.dfy ===
/** String helpers with the semantics of the Go standard library functions
    the orchestration layer relies on. */
module Text {

  /** Go's `unicode.IsSpace`: the Latin-1 spaces plus the code points above
      U+00FF that carry the Unicode White_Space property. */
  predicate IsSpace(c: char) {
    || c == '\t' || c == '\n' || c == '\U{000B}' || c == '\U{000C}' || c == '\r' || c == ' '
    || c == '\U{0085}' || c == '\U{00A0}' || c == '\U{1680}'
    || ('\U{2000}' <= c <= '\U{200A}')
    || c == '\U{2028}' || c == '\U{2029}' || c == '\U{202F}' || c == '\U{205F}' || c == '\U{3000}'
  }

  /** Drops leading white space: the result is a suffix of `s` that does not
      start with a space, and everything dropped was a space. */
  function TrimLeft(s: string): (r: string)
    ensures |r| <= |s| && r == s[|s| - |r|..]
    ensures r == [] || !IsSpace(r[0])
    ensures forall i :: 0 <= i < |s| - |r| ==> IsSpace(s[i])
    decreases |s|
  {
    if s != [] && IsSpace(s[0]) then TrimLeft(s[1..]) else s
  }

  /** Drops trailing white space: the result is a prefix of `s` that does not
      end with a space, and everything dropped was a space. */
  function TrimRight(s: string): (r: string)
    ensures |r| <= |s| && r == s[..|r|]
    ensures r == [] || !IsSpace(r[|r| - 1])
    ensures forall i :: |r| <= i < |s| ==> IsSpace(s[i])
    decreases |s|
  {
    if s != [] && IsSpace(s[|s| - 1]) then TrimRight(s[..|s| - 1]) else s
  }

  /** Go's `strings.TrimSpace`: only leading and trailing white space is
      removed, so the result is the part of `s` between them. It yields the
      empty string exactly when every character is white space. */
  function TrimSpace(s: string): (r: string)
    ensures exists lo :: && OccursAt(s, r, lo)
                         && (forall i :: 0 <= i < lo ==> IsSpace(s[i]))
                         && (forall i :: lo + |r| <= i < |s| ==> IsSpace(s[i]))
    ensures r == [] || (!IsSpace(r[0]) && !IsSpace(r[|r| - 1]))
    ensures r == [] <==> forall i :: 0 <= i < |s| ==> IsSpace(s[i])
  {
    var left := TrimLeft(s);
    var r := TrimRight(left);
    TrimmedBetween(s, left, r);
    r
  }

  /** Trimming a suffix of `s` that follows only white space, down to a
      prefix followed only by white space, leaves the part of `s` between
      the two runs. */
  lemma TrimmedBetween(s: string, left: string, r: string)
    requires |left| <= |s| && left == s[|s| - |left|..]
    requires forall i :: 0 <= i < |s| - |left| ==> IsSpace(s[i])
    requires |r| <= |left| && r == left[..|r|]
    requires forall i :: |r| <= i < |left| ==> IsSpace(left[i])
    ensures var lo := |s| - |left|;
            && OccursAt(s, r, lo)
            && (forall i :: 0 <= i < lo ==> IsSpace(s[i]))
            && (forall i :: lo + |r| <= i < |s| ==> IsSpace(s[i]))
  {
    var lo := |s| - |left|;
    assert s[lo..lo + |r|] == r;
    forall i | lo + |r| <= i < |s|
      ensures IsSpace(s[i])
    {
      assert s[i] == left[i - lo];
    }
  }

  /** The lower-case hexadecimal digits of a natural number. */
  function HexDigits(n: nat): (r: string)
    ensures |r| > 0
    decreases n
  {
    if n < 16 then ["0123456789abcdef"[n]] else HexDigits(n / 16) + ["0123456789abcdef"[n % 16]]
  }

  /** ASCII case folding: upper-case Latin letters map to lower case. */
  function FoldAscii(c: char): (f: char)
    ensures 'A' <= c <= 'Z' ==> 'a' <= f <= 'z'
    ensures !('A' <= c <= 'Z') ==> f == c
  {
    if 'A' <= c <= 'Z' then (c as int + 32) as char else c
  }

  /** Case-insensitive equality in the manner of `strings.EqualFold`,
      restricted to ASCII folding. */
  predicate EqualFold(a: string, b: string) {
    |a| == |b| && forall i :: 0 <= i < |a| ==> FoldAscii(a[i]) == FoldAscii(b[i])
  }

  /** `t` occurs inside `s` starting at index `i`. */
  predicate OccursAt(s: string, t: string, i: int) {
    0 <= i <= |s| - |t| && s[i..i + |t|] == t
  }

  /** `t` occurs somewhere inside `s`. */
  predicate HasInfix(s: string, t: string) {
    exists i :: 0 <= i <= |s| - |t| && OccursAt(s, t, i)
  }

  /** A middle part of a concatenation occurs in it, right after the first
      part. */
  lemma InfixOfConcat(s: string, a: string, b: string, c: string)
    requires s == a + b + c
    ensures OccursAt(s, b, |a|)
    ensures HasInfix(s, b)
  {
    assert s[|a|..|a| + |b|] == b;
    assert OccursAt(s, b, |a|);
  }

  /** Go's `strings.Join`. */
  function Join(parts: seq<string>, sep: string): string
    decreases |parts|
  {
    if parts == [] then ""
    else if |parts| == 1 then parts[0]
    else parts[0] + sep + Join(parts[1..], sep)
  }

  function DigitChar(d: nat): char
    requires d < 10
  {
    "0123456789"[d]
  }

  /** Decimal rendering of a natural number, as `%d` prints it. */
  function NatToString(n: nat): string
    decreases n
  {
    if n < 10 then [DigitChar(n)] else NatToString(n / 10) + [DigitChar(n % 10)]
  }

  /** Decimal rendering of an integer, as `%d` prints it. */
  function IntToString(n: int): string {
    if n < 0 then "-" + NatToString(-n) else NatToString(n)
  }
}

=== FILE: validation.dfy ===
/** The checks run before any script is launched: instance-name validation
    and the install-directory emptiness check. */
module Validation {
  import opened Text

  /** Characters the name pattern rejects: those reserved in Windows file
      names or meaningful to a command line, plus U+0000..U+001F. */
  predicate IsForbidden(c: char) {
    c in "<>:\"/\\|?*" || c < ' '
  }

  datatype NameError = InvalidCharacters | EmptyName

  datatype NameCheck = ValidName | RejectedName(reason: NameError)

  /** `ValidateDistroName`: the pattern search runs first, so a name holding a
      forbidden character is reported as such even when it is otherwise blank;
      a name that is white space only is rejected as empty. */
  method ValidateDistroName(name: string) returns (r: NameCheck)
    ensures r == RejectedName(InvalidCharacters) <==> exists i :: 0 <= i < |name| && IsForbidden(name[i])
    ensures r == RejectedName(EmptyName) <==>
              && (forall i :: 0 <= i < |name| ==> !IsForbidden(name[i]))
              && (forall i :: 0 <= i < |name| ==> IsSpace(name[i]))
    ensures r == ValidName <==>
              && (forall i :: 0 <= i < |name| ==> !IsForbidden(name[i]))
              && (exists i :: 0 <= i < |name| && !IsSpace(name[i]))
  {
    var i := 0;
    while i < |name|
      invariant 0 <= i <= |name|
      invariant forall j :: 0 <= j < i ==> !IsForbidden(name[j])
    {
      if IsForbidden(name[i]) {
        return RejectedName(InvalidCharacters);
      }
      i := i + 1;
    }
    if TrimSpace(name) == "" {
      return RejectedName(EmptyName);
    }
    return ValidName;
  }

  /** What opening a path finds on the host filesystem. A path that does not
      exist is simply absent from the filesystem map. */
  datatype Node =
    | Directory(entries: seq<string>)
    | RegularFile
    | UnlistableDirectory(detail: string)   // opens, but reading its names fails
    | Unopenable(detail: string)   // open failed for a reason other than non-existence

  /** The outcome of reading at most one name from an opened path. */
  datatype FirstRead = EndOfDirectory | FirstName(name: string) | ReadFailed

  /** `Readdirnames(1)` on an opened node: end-of-directory for an empty
      directory, one name for a non-empty one, and an error on a directory
      whose names cannot be read and on anything that is not a directory. */
  function ReadOneName(n: Node): FirstRead
    requires !n.Unopenable?
  {
    match n
    case Directory(entries) => if entries == [] then EndOfDirectory else FirstName(entries[0])
    case UnlistableDirectory(_) => ReadFailed
    case RegularFile => ReadFailed
  }

  datatype PathCheck = PathUsable | CannotVerify(detail: string) | NotEmpty

  /** `ValidateInstallPath` over the filesystem `fs`: usable when the path is
      missing or an empty directory; an open failure is reported with its
      detail; anything else, including an existing regular file and a
      directory whose names cannot be read, is refused as "not empty". */
  function ValidateInstallPath(fs: map<string, Node>, path: string): (r: PathCheck)
    ensures r == PathUsable <==> path !in fs || fs[path] == Directory([])
    ensures r.CannotVerify? <==> path in fs && fs[path].Unopenable?
    ensures r.CannotVerify? ==> r.detail == fs[path].detail
    ensures r == NotEmpty <==>
              && path in fs
              && (|| fs[path].RegularFile?
                  || fs[path].UnlistableDirectory?
                  || (fs[path].Directory? && fs[path].entries != []))
  {
    if path !in fs then PathUsable
    else match fs[path]
      case Unopenable(detail) => CannotVerify(detail)
      case _ => if ReadOneName(fs[path]) == EndOfDirectory then PathUsable else NotEmpty
  }
}

=== FILE: wrappers.dfy ===
/** Optional values and error-or-value results, standing in for Go's
    `(T, error)` return pairs and nil-able values. */
module Wrappers {

  datatype Option<+T> = None | Some(value: T)

  /** `Ok(v)` is a nil error with value `v`; `Err(e)` is a non-nil error `e`. */
  datatype Result<+T, +E> = Ok(value: T) | Err(error: E)
}
